=== FILE: README.md ===
# Membership quotas and post authorization of blog-sectores-econimia

This project models, in Dafny, the decision layer of a small Flask blog in
which members of an external platform publish posts. It covers:

- the membership tiers (bronze, silver, gold, platinum) and their table of
  posts per week and words per post;
- how a member's level is cleaned before it is looked up in that table;
- the quota predicates and the word counter over a post's content blocks;
- the normalisation of the level at login, and how it differs from the
  normalisation used by the quota table;
- the access gates: the bearer-token check that builds the current user,
  the membership gate and the login gate;
- the decisions of the post routes: the unique slug, creating, editing,
  deleting, listing and showing posts.

Everything is immutable data and total functions. The database is a
sequence of stored posts, each holding the values of its columns,
together with the weekly post count. A route writes a `Row` of the values
it assigns, and `Commit` converts them as the database does: it renders
numbers and booleans as text for text columns, reads integer text for
integer columns, fits text to its column's length, and refuses what a
column cannot take. Token
decoding and `slugify` are function parameters. Every error reply is an
`Http.ErrorKind` with its status code. An exception the route does not catch
becomes `InternalError` (500).

Modules, in dependency order:

- `Values`: `Option`, JSON values, Python truthiness, `dict.get` and iteration.
- `PyText`: the `str` operations the code relies on: `isspace`, ASCII
  `lower`, `replace(" ", "")` and `replace("Bearer ", "")`, `strip`,
  `split()`, `isdigit`, decimal rendering and `int()`.
- `MembershipRules`: the tier table, the cleaning of a level,
  `get_membership_limits`, `can_user_post`, `validate_post_length` and
  `count_words_from_blocks`.
- `Http`: the error replies and the `Result` type.
- `Auth`: `normalize_membership` and the level check of the login route.
- `Decorators`: `jwt_required_local`, `membership_required`, `login_required`,
  and `load_user` from app/__init__.py, which builds the current user that
  `login_required` checks.
- `Slugs`: `generate_unique_slug`, both as a loop and as a function, with
  its termination argument.
- `PostRoutes`: `create_post`, `edit_post`, `delete_post`, `get_posts`,
  `get_my_posts` and `get_post_detail`.

Behaviours the model makes explicit:

- Admins do not bypass the weekly or word quotas. The role only lets them
  past the membership gate (`PostRoutes.AdminsMeetQuotas`).
- The two normalisers disagree. At login, the name is stripped of its outer
  whitespace and an unknown name becomes platinum. The quota table removes
  every space and reads an unknown name as bronze.
- `category` is not among the required fields, but `create_post` reads it
  without a default. A request without it fails with 500.
- `int(user["id"])` is evaluated before the role is checked. An admin whose
  token subject is not an integer therefore cannot edit or delete any post.
- An all-digit slug is looked up as an id, so its post cannot be reached
  through its slug.
- When a post is edited, the new slug carries the editor's id, not the
  owner's.
- Two readers of the token disagree on the level. `load_user`, run before
  every request, strips outer whitespace from the level claim; the
  decorator that guards post creation does not. A token whose level is
  "gold\t" is therefore held to the gold word limit when a post is edited
  (`Decorators.LevelReadingsPartOnTab`). When one is created, the holder
  is refused at the creation gate with 403 if they are not an admin
  (`PostRoutes.TabbedGoldRefusedAtCreation`), and held to the bronze
  limits if they are.
- The database converts what it is given. A public image id sent as the
  number 0 or as false is stored as the text "0" or "false", which is
  truthy, so deleting the post sends it to the image host
  (`PostRoutes.FalsyPublicIdDestroyed`). A company id sent as the text "5"
  is stored as the integer 5 and listed for `company_id=5`
  (`PostRoutes.CompanyTextListed`).
- Text longer than its column is cut to the column's length when the
  excess is all spaces. Otherwise it fails the commit (`SaveFailed`, 500),
  as does text an integer column cannot read.
- The weekly count and the listing of one's own posts compare the integer
  `user_id` column with the token's subject as text. A subject the
  database cannot read as a 32-bit integer makes both fail with 500, even
  when Python's `int()`, which edit and delete use, reads it
  (`PostRoutes.WideSubjectFails`).
- A page size below 1 is replaced by 20 when the query is paginated, so a
  negative `per_page` lists 20 posts per page.

## Model

| member | source | states |
|---|---|---|
| MembershipRules.Rules | app/utils/membership_rules.py:6-11 | each tier allows 600 + 300 words per rank above bronze; the weekly quota is 2 * rank + 1 posts, and unlimited exactly for platinum |
| MembershipRules.LookupTier | app/utils/membership_rules.py:6-11 | the table has exactly the four tier names as keys: a key selects a tier iff it is that tier's name |
| MembershipRules.LimitsMonotone | app/utils/membership_rules.py:6-11 | both limits grow with the tier order bronze < silver < gold < platinum, and platinum's weekly quota is unlimited |
| MembershipRules.CleanLevel | app/utils/membership_rules.py:18 | a cleaned level holds no space and is never longer than the input |
| MembershipRules.CleanLevelIdempotent | app/utils/membership_rules.py:18 | cleaning twice equals cleaning once |
| MembershipRules.CleanLevelIgnoresSpace | app/utils/membership_rules.py:18 | a space anywhere in the level makes no difference |
| MembershipRules.CleanLevelIgnoresCase | app/utils/membership_rules.py:18 | lower-casing the level first makes no difference |
| MembershipRules.GetMembershipLimits | app/utils/membership_rules.py:16-19 | a level whose cleaned form is a tier name gets that tier's row; every other level, including None and "", gets the bronze row |
| MembershipRules.CanUserPost | app/utils/membership_rules.py:29-32 | holds iff the weekly count is strictly below the quota of the cleaned level's tier (bronze when unknown or absent); always for an unlimited quota |
| MembershipRules.ValidatePostLength | app/utils/membership_rules.py:34-37 | holds iff the word count is at most the word limit of the cleaned level's tier (600 when unknown or absent) |
| MembershipRules.LengthAgainstReportedLimits | app/utils/membership_rules.py:34-37 | validate_post_length compares against the very limits get_membership_limits reports for the same level |
| MembershipRules.TierNameClean | app/utils/membership_rules.py:6-11 | every table key is already clean |
| MembershipRules.LimitsOfTierName | app/utils/membership_rules.py:16-19 | each tier's name selects that tier's row |
| MembershipRules.TierNameLower | app/utils/membership_rules.py:6-11 | every table key is lower case |
| MembershipRules.WeeklyQuotaByTier | app/utils/membership_rules.py:29-32 | bronze, silver and gold may post iff fewer than 1, 3 and 5 posts this week; platinum always may |
| MembershipRules.PlatinumNeverBlocked | app/utils/membership_rules.py:10 | a level that cleans to "platinum", however spaced or capitalised, is never blocked by the weekly quota |
| MembershipRules.WordLimitByTier | app/utils/membership_rules.py:34-37 | the word limit is inclusive: 600, 900, 1200 and 1500 words pass, one more fails |
| MembershipRules.MissingLevelIsBronze | app/utils/membership_rules.py:30 | a user record without a level is held to the bronze limits by both predicates |
| MembershipRules.UnknownLevelsAreBronze | app/utils/membership_rules.py:16-19 | None, "", "bronce" and "diamond" all get the bronze row |
| MembershipRules.SpacedAndCapitalisedGold | app/utils/membership_rules.py:18-19 | " Go ld " gets the gold row |
| MembershipRules.CapitalGold | app/utils/membership_rules.py:18-19 | "GOLD" gets the gold row |
| MembershipRules.InteriorSpaceIgnored | app/utils/membership_rules.py:18-19 | "go ld" gets the gold row |
| MembershipRules.BlockText | app/utils/membership_rules.py:42-46 | an object block offers its text if truthy, else its content if truthy, else ""; a string block is its own text; any other block offers ""; a truthy non-string member makes the block raise |
| MembershipRules.BlockWords | app/utils/membership_rules.py:47 | a block contributes the number of maximal non-whitespace runs of its text, and raises exactly when its text does |
| MembershipRules.WordsInBlocks | app/utils/membership_rules.py:40-48 | the count of a block list fails iff some block raises |
| MembershipRules.WordsInBlocksBase | app/utils/membership_rules.py:40-48 | no blocks count zero words; a single block counts its own words |
| MembershipRules.WordsInBlocksAppend | app/utils/membership_rules.py:40-48 | the count is additive over concatenation of block lists |
| MembershipRules.CountWordsFromBlocks | app/utils/membership_rules.py:39-48 | any iterable value counts the items Python iterates; a list counts its blocks; a string counts its non-whitespace characters; an object never raises; null, a number or a boolean is not iterable and raises |
| MembershipRules.CharBlocksCount | app/utils/membership_rules.py:45-47 | the one-character blocks of a string count exactly its non-whitespace characters |
| MembershipRules.StringBlocksCount | app/utils/membership_rules.py:45-46 | blocks that are all strings never raise |
| PyText.Split | app/utils/membership_rules.py:47 | `split()` yields pieces with no whitespace in them, none empty |
| PyText.Strip | app/routes/auth.py:24 | the stripped text is the slice of the input after its leading whitespace run, only whitespace follows it, and it has no whitespace at either end |
| PyText.ParseInt | app/routes/post_routes.py:108 | `int()` reads all-digit text as its digit value, "+" and digits as the digit value, "-" and digits as its negation, and rejects everything else |
| PyText.ParseIntOfEveryDecimal | app/routes/post_routes.py:108 | `int()` of the decimal rendering of any natural number is that number |
| PyText.ReplaceAll | app/__init__.py:33 | a text without the pattern is returned unchanged; a text starting with the pattern starts with the replacement, and becomes the replacement followed by the rest when the pattern does not recur; a replacement no longer than the pattern never lengthens the text |
| PyText.ReplaceLeading | app/__init__.py:33 | the pattern followed by a text without it loses exactly that leading copy |
| PyText.SplitCountsRuns | app/utils/membership_rules.py:47 | `len(text.split())` is the number of maximal non-whitespace runs of the text |
| PyText.StripSurrounded | app/routes/auth.py:24 | `strip()` removes exactly the surrounding whitespace of a trimmed text |
| PyText.ParseIntOfDecimal | app/routes/post_routes.py:108 | `int()` reads back the decimal rendering of every natural number |
| PyText.ParseIntOfIntText | app/routes/post_routes.py:108 | `int()` reads back the decimal text of every integer, negative ones included |
| PyText.LowerStripCommute | app/__init__.py:37 | lower-casing and stripping may be done in either order |
| Auth.Synonym | app/routes/auth.py:15-21 | "bronce" and "bronze" map to bronze, each other tier name to its tier, and nothing else maps |
| Auth.NormalizeMembership | app/routes/auth.py:14-24 | a missing or empty name is platinum; otherwise the stripped, lower-cased name is looked up in the synonym table, and platinum is the fallback |
| Auth.NormalizeIdempotent | app/routes/auth.py:14-24 | normalising the name of a normalised tier gives the same tier |
| Auth.NormalizeIgnoresOuterSpace | app/routes/auth.py:24 | surrounding whitespace does not change the tier |
| Auth.NormalizeTrimmed | app/routes/auth.py:24 | a trimmed name is looked up lower-cased |
| Auth.NormalizeTrimsAndLowers | app/routes/auth.py:24 | " GOLD\t" is gold |
| Auth.NormalizeCapitals | app/routes/auth.py:24 | "GOLD" is gold |
| Auth.NormalizeSpanishBronze | app/routes/auth.py:16 | "Bronce" is bronze |
| Auth.NormalizeSpacedName | app/routes/auth.py:15-24 | a name that still holds a space after strip and lower is platinum, since no synonym contains a space |
| Auth.NormalizeInteriorSpace | app/routes/auth.py:24 | "go ld" keeps its space and falls back to platinum |
| Auth.NormalizeUnknown | app/routes/auth.py:24 | an unknown name falls back to platinum |
| Auth.LoginMembershipLevel | app/routes/auth.py:44-47 | the normalised level is always a tier name, so the 400 reply for an invalid level is unreachable |
| Auth.NormalisersAgreeOnTierNames | app/routes/auth.py:14-24 | on the four tier names, the login normaliser and the quota table agree |
| Auth.NormalisersDisagree | app/utils/membership_rules.py:18-19 | on "", "diamond" and "go ld" the login normaliser says platinum, while the quota table says bronze, bronze and gold |
| Auth.LoginLevelDecidesQuota | app/routes/auth.py:44-45 | the level written at login, cleaned again when the token is read, selects the row of the normalised tier |
| Decorators.JwtRequiredLocal | app/auth/decorators.py:19-38 | without the exact "Bearer " prefix, 401 before any decoding; an expired or invalid token gives 401; a valid one yields the user built from its payload |
| Decorators.TokenOf | app/auth/decorators.py:24 | the token is the text after the prefix up to the next space |
| Decorators.TokenLevel | app/auth/decorators.py:28 | the level claim defaults to "platinum" and is cleaned, so the result is a fixed point of the cleaning |
| Decorators.BuildCurrentUser | app/auth/decorators.py:30-38 | the identity claims are copied, the level is read as TokenLevel reads it, and each flag is false unless the payload sets it |
| Decorators.MembershipRequired | app/auth/decorators.py:53-75 | no user gives 401; an admin always passes; anyone else passes iff the cleaned level equals some lower-cased allowed level, and gets 403 otherwise |
| Decorators.LoginRequired | app/auth/decorators.py:79-85 | 401 iff there is no current user; otherwise the user is handed on unchanged |
| Decorators.BearerPrefixExact | app/auth/decorators.py:20-22 | "bearer abc", "Bearerabc" and "" are refused with 401 |
| Decorators.TokenLevelIsClean | app/auth/decorators.py:28 | a token without a level gets the platinum limits, and every level reaching a handler is unchanged by further cleaning |
| Decorators.MissingLevelReadsPlatinum | app/auth/decorators.py:28 | a payload without a level claim yields the platinum tier name |
| Decorators.TokenKeepsTier | app/auth/decorators.py:28 | a tier name written at login comes back unchanged and selects its tier's row |
| Decorators.LoadedLevel | app/__init__.py:37 | the level `load_user` stores is the level `jwt_required_local` reads, with its outer whitespace stripped; it is clean and has no outer whitespace |
| Decorators.LoadedLevelDefault | app/__init__.py:37 | without a level claim, `load_user` stores "platinum" |
| Decorators.LoadUser | app/__init__.py:28-56 | no user without the "Bearer " prefix; otherwise a user iff the header with every "Bearer " removed decodes; that user is the decorator's, with the level stripped as well |
| Decorators.LoadUserReadsDecoratorToken | app/__init__.py:32-35 | for "Bearer " and a token without spaces, `load_user` decodes the token `jwt_required_local` decodes: one has a user iff the other does, and the users differ at most in the level |
| Decorators.LoadUserReadsWholeRest | app/__init__.py:33 | for "Bearer a b", `jwt_required_local` decodes "a" while `load_user` decodes "a b" |
| Decorators.LevelReadingsAgree | app/__init__.py:37 | when the level, spaces removed, has no whitespace at its ends, `load_user` and `jwt_required_local` read it alike |
| Decorators.LoadedLevelDropsTab | app/__init__.py:37 | `load_user` reads "gold\t" as gold and gives it the gold row |
| Decorators.TokenLevelKeepsTab | app/auth/decorators.py:28 | `jwt_required_local` keeps the tab of "gold\t", and the quota table gives it the bronze row |
| Decorators.LevelReadingsPartOnTab | app/__init__.py:37 | the same level claim gets the gold row through `load_user` and the bronze row through `jwt_required_local` |
| Decorators.CreateAllowedLowered | app/routes/post_routes.py:30 | the creation gate's allow-list, lower-cased, is the four tier names |
| Decorators.GateAdmitsTier | app/auth/decorators.py:62-73 | a gate whose allow-list lowers to tier names admits a non-admin whose clean level is one of them |
| Decorators.GateAdmitsOnlyTiers | app/auth/decorators.py:62-73 | such a gate admits no other clean non-admin level |
| Decorators.GateOverTierNames | app/auth/decorators.py:62-73 | a gate listing all tier names admits a clean level iff the user is an admin or the level is a tier name |
| Decorators.CreateGateAdmitsTiers | app/routes/post_routes.py:30 | the creation gate admits a clean level iff the user is an admin or the level is a tier name |
| Decorators.UnknownLevelRefusedAtGate | app/auth/decorators.py:68-73 | a non-admin with an unknown clean level is refused with 403 at the creation gate, although the quota table would read the level as bronze |
| Slugs.CandidateShape | app/routes/post_routes.py:23 | a suffixed slug is the base, a dash, the counter in decimal, a dash and the owner text, in that order |
| Slugs.CandidateInjective | app/routes/post_routes.py:23 | a suffixed slug determines both its counter and its owner |
| Slugs.DistinctOwnersDistinctCandidates | app/routes/post_routes.py:23 | two users never compete for the same suffixed slug |
| Slugs.TriedShrinks | app/routes/post_routes.py:22-24 | each probe of a taken candidate shrinks the part of the finite store not yet probed, so the search ends |
| Slugs.FirstFree | app/routes/post_routes.py:22-24 | the first free counter from n on: its candidate is free and all candidates before it are taken |
| Slugs.UniqueSlug | app/routes/post_routes.py:17-25 | the slug is never taken; it is the base when the base is free, otherwise base-k-owner for the smallest k >= 1 whose candidate is free |
| Slugs.GenerateUniqueSlug | app/routes/post_routes.py:17-25 | the probing loop terminates and settles on the same slug as UniqueSlug |
| PostRoutes.Rendered | app/models/post.py:13-23 | a string is kept; a number becomes text that `int()` reads back as the number; a boolean becomes non-empty text, "true" exactly for true; null is NULL; a list or an object is refused |
| PostRoutes.Fit | app/models/post.py:13-16 | text within the limit is kept; longer text is cut to the limit exactly when everything past it is a space, and refused otherwise |
| PostRoutes.VarcharCell | app/models/post.py:13-16 | null is NULL; a value rendered within the limit is stored as rendered; the value is refused iff it cannot be rendered or fitted |
| PostRoutes.IntegerCell | app/models/post.py:26-33 | null is NULL; a stored integer is 32-bit and is the number given, or the integer the given text reads as; text is stored iff it reads as a 32-bit integer; a boolean, a list or an object is refused |
| PostRoutes.Commit | app/routes/post_routes.py:90-96 | the row is stored iff the database accepts every column and the slug is free, and 500 otherwise; a stored post meets every column constraint, and each of its columns holds what its column type makes of the assigned value: title, description and user name the fitted text, keywords, category and the image columns the text or NULL, company and owner ids the 32-bit integer the value reads as, the slug the fitted slug |
| PostRoutes.CommitKeepsText | app/models/post.py:10-37 | a committed row stores text within its column's length as it is, a 32-bit number in an integer column as that number, and null as NULL |
| PostRoutes.CommitRoundTrip | app/models/post.py:10-37 | writing back a stored post whose slug no other row holds stores it unchanged |
| PostRoutes.CommitStable | app/models/post.py:10-37 | writing back a committed post gives the same post again |
| PostRoutes.Filter | app/routes/post_routes.py:174 | a filtered store holds exactly the stored posts the condition keeps |
| PostRoutes.Find | app/routes/post_routes.py:206-208 | finds a stored post the condition selects, and fails only when there is none |
| PostRoutes.Stored | app/routes/post_routes.py:104 | 404 iff no stored post has the id; otherwise that post |
| PostRoutes.RequestData | app/routes/post_routes.py:35 | a falsy body reads as the empty object; an object body is used as is; any other body fails with 500 |
| PostRoutes.Missing | app/routes/post_routes.py:39-40 | a field is listed iff it is required and the request's value for it is falsy |
| PostRoutes.CountOrCrash | app/routes/post_routes.py:51 | the word count of the blocks, and 500 exactly when counting raises |
| PostRoutes.SubjectNumber | app/routes/post_routes.py:108 | a missing subject reads as no number; the decimal rendering of n reads as n |
| PostRoutes.MayModify | app/routes/post_routes.py:108 | admins may always; a user whose subject is the decimal n may iff n owns the post or the user is an admin; without a subject, only an admin may |
| PostRoutes.OwnerCheck | app/routes/post_routes.py:108-109 | a subject that is not an integer gives 500 even for an admin; otherwise the post is handed on iff the user owns it or is an admin, and 403 otherwise |
| PostRoutes.CreatePost | app/routes/post_routes.py:31-96 | missing fields give 400 naming them; a subject the database cannot compare with the integer owner column gives 500 at the weekly count; the weekly quota (403) is checked before the word limit, and a count over the limit gives 400 with the limit and the count; when every check passes the result is the commit of the new row; a saved post carries the counted words, the fitted unique slug of the title for the owner and the integer owner id |
| PostRoutes.CreatePostRoute | app/routes/post_routes.py:28-31 | a token refusal is returned as is; an admitted user is refused exactly as the membership gate refuses; a user who passes both gates gets exactly the result of create_post |
| PostRoutes.NoneMissing | app/routes/post_routes.py:40-41 | with every required field truthy, nothing is missing |
| PostRoutes.AdminsMeetQuotas | app/routes/post_routes.py:45-47 | an admin with a valid token passes both gates and is still refused with 403 once their weekly quota is used up |
| PostRoutes.MissingCategoryFails | app/routes/post_routes.py:78 | a request that passes every check but lacks category fails with 500 |
| PostRoutes.CreatedPostKeepsRequest | app/routes/post_routes.py:74-92 | a created post stores the request's title, description, keywords and category as sent when they are text within their column's length, a 32-bit company id as sent, the image fields as sent, an absent optional field as NULL, and the token's user name |
| PostRoutes.CreateKeepsSlugsDistinct | app/routes/post_routes.py:59-60 | adding a created post keeps the stored slugs distinct |
| PostRoutes.Merge | app/routes/post_routes.py:128-131 | the request's value when it has the key, even a null one; the stored value otherwise |
| PostRoutes.EditedSlug | app/routes/post_routes.py:141-143 | the slug changes only when the request carries a different title, and is then the free unique slug of that title for the editor |
| PostRoutes.EditedImage | app/routes/post_routes.py:138-139 | the image changes only when its key is present, and a falsy value clears it |
| PostRoutes.EditedRow | app/routes/post_routes.py:113-143 | fields absent from the request keep their stored values; the word count is the new one; the slug changes iff the request carries a different title, to a free slug; every other column is written back as stored |
| PostRoutes.EditPost | app/routes/post_routes.py:103-158 | 401 without a user; 404 iff no post has the id; for an existing post and a readable body the edit is saved iff the subject is an integer, the user may modify the post, the blocks can be counted, the count is within the user's limit and the database accepts the edited row; a count over the limit gives 400 with the limit and the count; a saved edit is the commit of the merged row |
| PostRoutes.DeletePost | app/routes/post_routes.py:257-280 | 401 without a user; after a permitted delete, exactly the posts with other ids remain, and the stored public id is handed to `destroy` iff it is present and not empty |
| PostRoutes.StrangersRefused | app/routes/post_routes.py:108-109 | a user with an integer subject who neither owns the post nor is an admin gets 403 from edit and from delete |
| PostRoutes.DeleteAccess | app/routes/post_routes.py:258-263 | delete succeeds iff the post exists, the subject is an integer and the user may modify the post; the post is then gone |
| PostRoutes.TextSubjectFails | app/routes/post_routes.py:262 | an admin whose subject is not an integer cannot edit or delete (500) |
| PostRoutes.AppendKeepsSlugsDistinct | app/models/post.py:37 | adding a post whose slug is free keeps the slugs distinct |
| PostRoutes.ReplaceKeepsSlugsDistinct | app/models/post.py:37 | replacing a post by one whose slug no other row holds keeps the slugs distinct |
| PostRoutes.EditedPostKeepsRest | app/routes/post_routes.py:127-137 | after an edit, each field the request leaves out keeps its stored value, a title or description sent as text within its column's length is stored as sent, and the company, the image's public id, the owner, the user name and the week are unchanged |
| PostRoutes.EditKeepsSlugsDistinct | app/routes/post_routes.py:141-146 | writing an edited post back keeps the stored slugs distinct |
| PostRoutes.IntArg | app/routes/post_routes.py:167 | an argument that reads as an integer is that integer; an absent or unreadable one gives the default |
| PostRoutes.PageSize | app/routes/post_routes.py:167 | the page size never exceeds the cap, and is the requested size when that is within the cap |
| PostRoutes.EffectivePageSize | app/routes/post_routes.py:178 | the page size used by paginate is at least 1: a requested size below 1 becomes 20 |
| PostRoutes.GetPosts | app/routes/post_routes.py:164-198 | page size min(requested or 12, 20), 20 when that is below 1, so always between 1 and 20; a non-zero company id keeps exactly the posts whose stored company id is that integer |
| PostRoutes.GetMyPosts | app/routes/post_routes.py:229-248 | 401 without a user; page size min(requested or 10, 50), 20 when that is below 1, so always between 1 and 50; an admin flag shows every post; anyone else gets 500 iff they have a subject and it is text the database cannot read as a 32-bit integer; otherwise exactly the posts owned by the subject, and an empty page without a subject, since `user_id IS NULL` matches no row |
| PostRoutes.GetPostDetail | app/routes/post_routes.py:203-225 | an all-digit identifier is looked up as an id and anything else as a slug; 404 iff nothing matches |
| PostRoutes.PageSizeOfNumber | app/routes/post_routes.py:167 | a numeric page size is honoured up to the cap |
| PostRoutes.ListingPageSizes | app/routes/post_routes.py:167-241 | the public listing's pages hold 12 by default and at most 20; one's own posts, 10 by default and at most 50; a requested size of -5 gives 20 in both |
| PostRoutes.CompanyFilter | app/routes/post_routes.py:173-174 | a positive company id keeps exactly the posts whose stored company id is that integer; no id or 0 lists every post |
| PostRoutes.MyPostsOfOwner | app/routes/post_routes.py:235-238 | a non-admin whose subject is a 32-bit n sees exactly the posts owned by n; an admin sees every post |
| PostRoutes.DetailById | app/routes/post_routes.py:205-206 | every stored post is reachable through its id in decimal |
| PostRoutes.DetailBySlug | app/routes/post_routes.py:207-208 | every stored post whose slug is not all digits is reachable through its slug |
| PostRoutes.DigitSlugShadowed | app/routes/post_routes.py:205-211 | a post with an all-digit slug answers 404 to its own slug unless some post has that id |
| PostRoutes.CompanyTextListed | app/routes/post_routes.py:173-174 | a company id sent as the text of a positive 32-bit number is stored as that number, and the post is listed for it |
| PostRoutes.FalsyPublicIdDestroyed | app/routes/post_routes.py:267-268 | a public id sent as 0 or false is stored as "0" or "false", and deleting the post hands that text to `destroy` |
| PostRoutes.WideSubjectFails | app/routes/post_routes.py:45 | a subject beyond 32 bits, read by `int()`, makes the weekly count of `create_post` and a non-admin's listing of their own posts fail with 500 |
| PostRoutes.TabbedGoldRefusedAtCreation | app/routes/post_routes.py:28-30 | a non-admin whose token claims "gold\t" is refused at the creation gate with 403 |

## Left out

- Token decoding is a parameter `decode: string -> Decoded`. HS256 signatures, expiry and the secret key are not modelled. An exception of another kind escaping `jwt.decode` is not modelled.
- The app factory, the CORS set-up and `LoggedDict` in app/__init__.py are not part of this model. `LoadUser` is the user `login_required` receives: `EditPost`, `DeletePost` and `GetMyPosts` take it as their `user` input rather than decoding the header themselves. An exception other than an expired or invalid token escaping `load_user` is not modelled.
- `LoadedLevel` and `TokenLevel` do not model `str()` of a non-string level claim; the claim is a string or absent.
- The login route apart from lines 44-47 is left out: the call to the external platform and the user upsert are I/O. `str()` of a non-string level is not modelled (`raw` is already a string).
- The weekly post count and the week number are inputs, since they come from the clock and the database. `get_current_week_number` and `count_user_posts_this_week` are left out.
- `slugify` is a parameter `slugify: Json -> string`. It raises on a non-string title in the source; the model does not.
- The database is a sequence of posts. Ordering by creation time, pagination by page number, and `created_at`/`updated_at` are left out. Listings return the selected posts and the page size.
- `EffectivePageSize` follows Flask-SQLAlchemy 3.x, which replaces a page size below 1 by 20 when `error_out` is false; version 2.x replaces only a negative size, and this model does not cover it. The clamping of the page number is not modelled.
- `IntegerText` takes the database's reading of integer text to be `int()`'s as modelled by `ParseInt`. Postgres also accepts surrounding whitespace, and from version 16 digit-separating underscores and base prefixes; such subjects and company ids are not modelled.
- `Commit` checks every column of an edited row, while the database writes only the changed ones. The two agree on stored posts, which meet the column constraints (`CommitRoundTrip`).
- `Rendered` refuses a list written to a text column. The database driver would send it as an array, which Postgres may store as its text form; this is not modelled. An object cannot be sent at all.
- `Commit` takes the new post's id as given (`newId`). The database assigns it, and a clash with an existing id is not modelled.
- CountWordsFromBlocks: for an object, the count is stated through the keys as `Iterate` yields them; there is no closed form over the keys' text.
- ReplaceAll: for a text that holds the pattern more than once, only the definition gives the result; the contract states the leading copy, the no-occurrence case and the length bound.
- Flags in the token are booleans. A non-boolean `is_admin` claim is not modelled; its truthiness would decide `get_my_posts`.
- `Lower` lower-cases only ASCII letters, and `IsDigits` and `int()` accept only ASCII digits. Python's Unicode case mapping, Unicode digits, and the surrounding whitespace and digit-separating underscores that `int()` also accepts are left out. The sign is modelled.
- Cloudinary uploads and the upload routes are left out. `DeletePost` returns the public id to destroy rather than calling the host; a failing destroy (500 with rollback) is not modelled.
- `to_dict`, the response bodies, `LoggedDict` and the `print` calls are left out; only the decision and the error reply are modelled.
- JSON numbers are integers. Floats, and `math.inf` as a float, are not modelled; the unlimited quota is the constructor `Unlimited`.
- JSON objects are sequences of members with distinct keys. Duplicate keys are not modelled.
- `request.get_json()` failures caused by a wrong content type are left out. A body that is not JSON is not modelled.

=== FILE: auth.dfy ===
/** Tier-name normalisation at login, and the check that follows it. */
module Auth {
  import opened Values
  import opened PyText
  import opened MembershipRules
  import opened Http

  /** The synonym table of `normalize_membership`: the Spanish spelling
      "bronce" and the four tier names. */
  function Synonym(key: string): (r: Option<Tier>)
    ensures key == "bronce" ==> r == Some(Bronze)
    ensures forall t :: key == TierName(t) ==> r == Some(t)
    ensures r.Some? ==> key == "bronce" || key == TierName(r.value)
  {
    if key == "bronce" then Some(Bronze)
    else if key == "bronze" then Some(Bronze)
    else if key == "silver" then Some(Silver)
    else if key == "gold" then Some(Gold)
    else if key == "platinum" then Some(Platinum)
    else None
  }

  /** `normalize_membership(name)`: a missing or empty name is platinum;
      otherwise the name is stripped of surrounding whitespace and
      lower-cased, and a name outside the synonym table is platinum. The
      result is always one of the four tiers (the tier's name in the
      source). */
  function NormalizeMembership(name: Option<string>): (t: Tier)
    ensures name.None? || name == Some("") ==> t == Platinum
    ensures name.Some? && name.value != "" && Lower(Strip(name.value)) == "bronce" ==> t == Bronze
    ensures forall u :: name.Some? && name.value != "" && Lower(Strip(name.value)) == TierName(u) ==> t == u
    ensures name.Some? && name.value != "" && Synonym(Lower(Strip(name.value))).None? ==> t == Platinum
  {
    if name.None? || name.value == "" then Platinum
    else Synonym(Lower(Strip(name.value))).GetOr(Platinum)
  }

  /** A word of lower-case ASCII letters is unchanged by `strip().lower()`. */
  lemma LowercaseWordNormal(s: string)
    requires s != []
    requires forall i :: 0 <= i < |s| ==> 'a' <= s[i] <= 'z'
    ensures Lower(Strip(s)) == s
  {
    StripTrimmed(s);
  }

  lemma TierNameStripped(t: Tier)
    ensures Lower(Strip(TierName(t))) == TierName(t)
  {
    LowercaseWordNormal(TierName(t));
  }

  /** Normalising a normalised name gives the same tier. */
  lemma NormalizeIdempotent(name: Option<string>)
    ensures NormalizeMembership(Some(TierName(NormalizeMembership(name)))) == NormalizeMembership(name)
  {
    TierNameStripped(NormalizeMembership(name));
  }

  /** Only the outer whitespace is cut: surrounding a name with whitespace
      does not change its tier, while whitespace inside it stays part of
      the key. */
  lemma NormalizeIgnoresOuterSpace(p: string, s: string, q: string)
    requires AllSpace(p) && AllSpace(q)
    requires s != [] && !IsSpace(s[0]) && !IsSpace(s[|s| - 1])
    ensures NormalizeMembership(Some(p + s + q)) == NormalizeMembership(Some(s))
  {
    StripSurrounded(p, s, q);
    StripTrimmed(s);
  }

  /** A name without surrounding whitespace is looked up lower-cased. */
  lemma NormalizeTrimmed(s: string)
    requires s != [] && !IsSpace(s[0]) && !IsSpace(s[|s| - 1])
    ensures NormalizeMembership(Some(s)) == Synonym(Lower(s)).GetOr(Platinum)
  {
    StripTrimmed(s);
  }

  /** Surrounding whitespace and capitals are ignored. */
  lemma NormalizeTrimsAndLowers()
    ensures NormalizeMembership(Some(" " + "GOLD" + "\t")) == Gold
  {
    NormalizeIgnoresOuterSpace(" ", "GOLD", "\t");
    NormalizeCapitals();
  }

  lemma NormalizeCapitals()
    ensures NormalizeMembership(Some("GOLD")) == Gold
  {
    NormalizeTrimmed("GOLD");
    assert Lower("GOLD") == "gold";
  }

  /** The Spanish spelling is bronze. */
  lemma NormalizeSpanishBronze()
    ensures NormalizeMembership(Some("Bronce")) == Bronze
  {
    NormalizeTrimmed("Bronce");
    assert Lower("Bronce") == "bronce";
  }

  /** A space left inside the name after stripping is kept in the key, and
      no synonym contains a space, so such a name is platinum. */
  lemma NormalizeSpacedName(name: string)
    requires ' ' in Lower(Strip(name))
    ensures NormalizeMembership(Some(name)) == Platinum
  {
  }

  /** So "go ld" is unknown: platinum. */
  lemma NormalizeInteriorSpace()
    ensures NormalizeMembership(Some("go ld")) == Platinum
  {
    StripTrimmed("go ld");
    assert Lower("go ld") == "go ld";
    assert "go ld"[2] == ' ';
    NormalizeSpacedName("go ld");
  }

  /** An unknown name is platinum. */
  lemma NormalizeUnknown()
    ensures NormalizeMembership(Some("diamond")) == Platinum
  {
    NormalizeTrimmed("diamond");
    assert Lower("diamond") == "diamond";
  }

  /** Lines 44-47 of the login route: the provider's level, rendered as a
      string and stripped, is normalised, and an empty result would be
      answered with 400. The normalised name is never empty, so that reply
      cannot happen and the level is always a tier name. */
  function LoginMembershipLevel(raw: string): (r: Result<string>)
    ensures r.Ok?
    ensures r.Ok? ==> exists t :: r.value == TierName(t)
  {
    var rawLevel := Strip(raw);
    var level := TierName(NormalizeMembership(Some(rawLevel)));
    if level == "" then Err(InvalidMembershipLevel(rawLevel)) else Ok(level)
  }

  // ---------------------------------------------------------------------
  // The login normaliser against the quota table's normaliser

  /** The two normalisers agree on the four tier names. */
  lemma NormalisersAgreeOnTierNames(t: Tier)
    ensures NormalizeMembership(Some(TierName(t))) == t
    ensures GetMembershipLimits(Some(TierName(t))) == Rules(t)
  {
    TierNameStripped(t);
    TierNameClean(t);
  }

  /** They part on the default and on interior spaces: the login side
      reads an empty, spaced or unknown name as platinum, the quota table
      reads the empty and unknown names as bronze and ignores spaces. */
  lemma NormalisersDisagree()
    ensures NormalizeMembership(Some("")) == Platinum && GetMembershipLimits(Some("")) == Rules(Bronze)
    ensures NormalizeMembership(Some("diamond")) == Platinum && GetMembershipLimits(Some("diamond")) == Rules(Bronze)
    ensures NormalizeMembership(Some("go ld")) == Platinum && GetMembershipLimits(Some("go ld")) == Rules(Gold)
  {
    NormalizeUnknown();
    NormalizeInteriorSpace();
    UnknownLevelsAreBronze();
    InteriorSpaceIgnored();
  }

  /** End to end, the login level decides the quotas: whatever the provider
      sends, the table lookup of the level written at login (cleaned again
      when the token is read) returns the row of the normalised tier. */
  lemma LoginLevelDecidesQuota(raw: string)
    ensures var r := LoginMembershipLevel(raw);
            r.Ok? && GetMembershipLimits(Some(CleanLevel(r.value)))
                     == Rules(NormalizeMembership(Some(Strip(raw))))
  {
    var t := NormalizeMembership(Some(Strip(raw)));
    TierNameClean(t);
  }
}

=== FILE: decorators.dfy ===
/** The access gates wrapped around the route handlers: the bearer-token
    check that builds the current user, the membership gate and the login
    gate. Token decoding itself (signature and expiry) is a parameter. */
module Decorators {
  import opened Values
  import opened PyText
  import opened MembershipRules
  import opened Http

  /** The claims of a decoded token; None where the payload lacks the key. */
  datatype Payload = Payload(
    sub: Option<string>,
    username: Option<string>,
    role: Option<string>,
    membershipLevel: Option<string>,
    isAdmin: Option<bool>,
    isBuyer: Option<bool>,
    isSeller: Option<bool>)

  /** The request's current user (`g.current_user`). */
  datatype CurrentUser = CurrentUser(
    id: Option<string>,
    username: Option<string>,
    role: Option<string>,
    membershipLevel: string,
    isAdmin: bool,
    isBuyer: bool,
    isSeller: bool)

  /** What the token library makes of a token. */
  datatype Decoded = Valid(payload: Payload) | Expired | Invalid

  const BearerPrefix: string := "Bearer "

  /** The level assumed when a token carries none. */
  const DefaultTokenLevel: string := "platinum"

  predicate HasBearerPrefix(header: string) {
    |header| >= |BearerPrefix| && header[..|BearerPrefix|] == BearerPrefix
  }

  /** The text up to the first space, or all of it. */
  function UpToSpace(s: string): (r: string)
    ensures ' ' !in r
    ensures |r| <= |s| && r == s[..|r|]
    ensures |r| == |s| || s[|r|] == ' '
  {
    if s == [] || s[0] == ' ' then []
    else
      var r := [s[0]] + UpToSpace(s[1..]);
      assert s[..|r|] == [s[0]] + s[1..][..|r| - 1];
      r
  }

  /** `header.split(" ")[1]` for a header with the bearer prefix: the text
      after "Bearer " up to the next space. */
  function TokenOf(header: string): (token: string)
    requires HasBearerPrefix(header)
    ensures ' ' !in token
    ensures |BearerPrefix| + |token| <= |header|
    ensures header[..|BearerPrefix| + |token|] == BearerPrefix + token
    ensures |header| == |BearerPrefix| + |token| || header[|BearerPrefix| + |token|] == ' '
  {
    var rest := header[|BearerPrefix|..];
    var token := UpToSpace(rest);
    assert header == BearerPrefix + rest;
    token
  }

  /** The level claim as `jwt_required_local` reads it: "platinum" when
      the payload has none, and cleaned (spaces removed, lower-cased). The
      result is a fixed point of the cleaning. */
  function TokenLevel(level: Option<string>): (r: string)
    ensures CleanLevel(r) == r
    ensures level.None? ==> r == DefaultTokenLevel
    ensures level.Some? ==> r == CleanLevel(level.value)
  {
    var l := level.GetOr(DefaultTokenLevel);
    CleanLevelIdempotent(l);
    if level.None? then TierNameClean(Platinum); CleanLevel(l) else CleanLevel(l)
  }

  /** `payload.get(flag, False)` for a boolean claim. */
  function FlagOf(o: Option<bool>): (r: bool)
    ensures r <==> o == Some(true)
  {
    match o
    case Some(b) => b
    case None => false
  }

  /** The current user `jwt_required_local` builds from a payload: the
      level as TokenLevel reads it, the flags false unless the payload sets
      them, the other entries copied. */
  function BuildCurrentUser(p: Payload): (u: CurrentUser)
    ensures u.id == p.sub && u.username == p.username && u.role == p.role
    ensures u.membershipLevel == TokenLevel(p.membershipLevel)
    ensures u.isAdmin <==> p.isAdmin == Some(true)
    ensures u.isBuyer <==> p.isBuyer == Some(true)
    ensures u.isSeller <==> p.isSeller == Some(true)
  {
    var level := TokenLevel(p.membershipLevel);
    CurrentUser(p.sub, p.username, p.role, level, FlagOf(p.isAdmin), FlagOf(p.isBuyer), FlagOf(p.isSeller))
  }

  /** `jwt_required_local`: without the exact "Bearer " prefix the request
      is refused with 401 before any decoding; an expired or otherwise
      invalid token is refused with 401; a valid one yields the current
      user built from its payload. */
  function JwtRequiredLocal(header: string, decode: string -> Decoded): (r: Result<CurrentUser>)
    ensures !HasBearerPrefix(header) ==> r == Err(TokenRequired)
    ensures r.Err? ==> Code(r.error) == 401
    ensures HasBearerPrefix(header) ==> (r.Ok? <==> decode(TokenOf(header)).Valid?)
    ensures r.Ok? ==> HasBearerPrefix(header)
                      && r.value == BuildCurrentUser(decode(TokenOf(header)).payload)
  {
    if !HasBearerPrefix(header) then Err(TokenRequired)
    else
      match decode(TokenOf(header))
      case Valid(p) => Ok(BuildCurrentUser(p))
      case Expired => Err(TokenExpired)
      case Invalid => Err(TokenInvalid)
  }

  /** The lower-cased allow-list. */
  function LowerAll(levels: seq<string>): (r: seq<string>)
    ensures |r| == |levels|
    ensures forall i :: 0 <= i < |levels| ==> r[i] == Lower(levels[i])
  {
    seq(|levels|, i requires 0 <= i < |levels| => Lower(levels[i]))
  }

  predicate IsAdminRole(u: CurrentUser) {
    u.role == Some("admin")
  }

  /** `membership_required(levels_allowed)`: no current user gives 401; an
      admin always passes; anyone else passes exactly when the cleaned
      level equals some lower-cased allowed level, and gets 403 otherwise.
      A passing user is handed on unchanged. */
  function MembershipRequired(allowed: seq<string>, user: Option<CurrentUser>): (r: Result<CurrentUser>)
    ensures user.None? <==> r == Err(NotAuthenticated)
    ensures user.Some? && IsAdminRole(user.value) ==> r == Ok(user.value)
    ensures user.Some? && !IsAdminRole(user.value) ==>
              (r == Ok(user.value) <==>
               exists i :: 0 <= i < |allowed| && Lower(allowed[i]) == CleanLevel(user.value.membershipLevel))
    ensures user.Some? && r.Err? ==> r.error == LevelNotAllowed(user.value.membershipLevel) && Code(r.error) == 403
  {
    match user
    case None => Err(NotAuthenticated)
    case Some(u) =>
      var clean := CleanLevel(u.membershipLevel);
      if IsAdminRole(u) then Ok(u)
      else if clean !in LowerAll(allowed) then Err(LevelNotAllowed(u.membershipLevel))
      else Ok(u)
  }

  /** `login_required`: 401 exactly when there is no current user;
      otherwise the handler runs with the user unchanged. */
  function LoginRequired(user: Option<CurrentUser>): (r: Result<CurrentUser>)
    ensures r.Err? <==> user.None?
    ensures r.Err? ==> r.error == NotLoggedIn && Code(r.error) == 401
    ensures r.Ok? ==> r.value == user.value
  {
    match user
    case None => Err(NotLoggedIn)
    case Some(u) => Ok(u)
  }

  // ---------------------------------------------------------------------
  // load_user: the user the login gate sees

  /** The level `load_user` stores: "platinum" when the claim is absent,
      then spaces removed, outer whitespace stripped, and lower-cased. It
      is the level `jwt_required_local` reads, with its outer whitespace
      stripped, and it is already clean. */
  function LoadedLevel(level: Option<string>): (r: string)
    ensures r == Strip(TokenLevel(level))
    ensures Strip(r) == r && CleanLevel(r) == r
  {
    var l := level.GetOr(DefaultTokenLevel);
    StrippedCleanLevel(RemoveSpaces(l));
    Lower(Strip(RemoveSpaces(l)))
  }

  /** Without a level claim, `load_user` stores "platinum". */
  lemma LoadedLevelDefault(level: Option<string>)
    requires level.None?
    ensures LoadedLevel(level) == DefaultTokenLevel
  {
    DefaultLevelStripped();
  }

  /** "platinum" has no outer whitespace. */
  lemma DefaultLevelStripped()
    ensures Strip(DefaultTokenLevel) == DefaultTokenLevel
  {
    StripTrimmed(DefaultTokenLevel);
  }

  /** Stripping a space-free text and lower-casing it gives a clean,
      stripped level, the strip of the lower-cased text. */
  lemma StrippedCleanLevel(t: string)
    requires ' ' !in t
    ensures var r := Lower(Strip(t));
      r == Strip(Lower(t)) && Strip(r) == r && CleanLevel(r) == r
  {
    var s := Strip(t);
    assert ' ' !in s by {
      forall i | 0 <= i < |s| ensures s[i] != ' ' {
        assert s[i] == t[SpaceRun(t) + i];
      }
    }
    LowerKeepsSpaceFree(s);
    LowerStripCommute(t);
    StripIdempotent(t);
    LowerStripCommute(s);
    LowerIdempotent(s);
    RemoveSpacesKeepsSpaceFree(Lower(s));
  }

  /** `load_user`, run before every request: without the "Bearer "
      prefix, or with a token that does not decode, there is no current
      user; otherwise the token is the header with every "Bearer "
      removed, and the user is the one `jwt_required_local` would build,
      except for the level, which is also stripped. This is the user the
      login gate, and so editing, deleting and listing one's own posts,
      work with; post creation replaces it through `jwt_required_local`. */
  function LoadUser(header: string, decode: string -> Decoded): (r: Option<CurrentUser>)
    ensures !HasBearerPrefix(header) ==> r.None?
    ensures HasBearerPrefix(header) ==> (r.Some? <==> decode(ReplaceAll(header, BearerPrefix, "")).Valid?)
    ensures r.Some? ==>
              var p := decode(ReplaceAll(header, BearerPrefix, "")).payload;
              r.value == BuildCurrentUser(p).(membershipLevel := LoadedLevel(p.membershipLevel))
  {
    if !HasBearerPrefix(header) then None
    else
      match decode(ReplaceAll(header, BearerPrefix, ""))
      case Valid(p) =>
        Some(CurrentUser(p.sub, p.username, p.role, LoadedLevel(p.membershipLevel),
                         FlagOf(p.isAdmin), FlagOf(p.isBuyer), FlagOf(p.isSeller)))
      case _ => None
  }

  /** For "Bearer " followed by a token without spaces, `load_user` and
      `jwt_required_local` decode the same token, so one has a user iff
      the other does, and the users differ at most in the level. */
  lemma LoadUserReadsDecoratorToken(t: string, decode: string -> Decoded)
    requires ' ' !in t
    ensures TokenOf(BearerPrefix + t) == t
    ensures ReplaceAll(BearerPrefix + t, BearerPrefix, "") == t
    ensures LoadUser(BearerPrefix + t, decode).Some? <==> JwtRequiredLocal(BearerPrefix + t, decode).Ok?
    ensures LoadUser(BearerPrefix + t, decode).Some? ==>
              LoadUser(BearerPrefix + t, decode).value
              == JwtRequiredLocal(BearerPrefix + t, decode).value.(membershipLevel := LoadUser(BearerPrefix + t, decode).value.membershipLevel)
  {
    var h := BearerPrefix + t;
    assert HasBearerPrefix(h) by { assert h[..|BearerPrefix|] == BearerPrefix; }
    var token := TokenOf(h);
    assert h[|BearerPrefix|..] == t;
    assert token == h[|BearerPrefix|..][..|token|];
    if Occurs(t, BearerPrefix) {
      OccursContains(t, BearerPrefix, ' ');
    }
    ReplaceLeading(BearerPrefix, t, "");
  }

  /** With a second space-separated word, they decode different tokens:
      the decorator takes the first word, `load_user` the whole rest. */
  lemma LoadUserReadsWholeRest()
    ensures TokenOf("Bearer a b") == "a"
    ensures ReplaceAll("Bearer a b", BearerPrefix, "") == "a b"
  {
    var h := "Bearer a b";
    assert h == BearerPrefix + "a b";
    assert h[|BearerPrefix| + 1] == ' ';
    ReplaceLeading(BearerPrefix, "a b", "");
  }

  /** Both readings of the level claim agree when, spaces removed, it has
      no whitespace at its ends. */
  lemma LevelReadingsAgree(level: Option<string>)
    requires var t := RemoveSpaces(level.GetOr(DefaultTokenLevel));
             t == [] || (!IsSpace(t[0]) && !IsSpace(t[|t| - 1]))
    ensures LoadedLevel(level) == TokenLevel(level)
  {
    StripTrimmed(RemoveSpaces(level.GetOr(DefaultTokenLevel)));
  }

  /** `load_user` strips a trailing tab, so "gold\t" is read as gold. */
  lemma LoadedLevelDropsTab()
    ensures LoadedLevel(Some("gold\t")) == "gold"
    ensures GetMembershipLimits(Some(LoadedLevel(Some("gold\t")))) == Rules(Gold)
  {
    TokenLevelKeepsTab();
    StripGoldTab();
    TierNameLower(Gold);
    LimitsOfTierName(Gold);
  }

  lemma StripGoldTab()
    ensures Strip("gold\t") == "gold"
  {
    StripSurrounded([], "gold", "\t");
    assert [] + "gold" + "\t" == "gold\t";
  }

  /** `jwt_required_local` keeps the tab, and the quota table, which
      removes only spaces, reads the level as bronze. */
  lemma TokenLevelKeepsTab()
    ensures TokenLevel(Some("gold\t")) == "gold\t"
    ensures GetMembershipLimits(Some(TokenLevel(Some("gold\t")))) == Rules(Bronze)
  {
    TabbedGoldClean();
    TabbedGoldIsBronze();
  }

  lemma TabbedGoldClean()
    ensures CleanLevel("gold\t") == "gold\t"
  {
    PlainTextClean("gold\t");
  }

  /** Text without spaces or capitals is already clean. */
  lemma PlainTextClean(s: string)
    requires ' ' !in s
    requires forall i :: 0 <= i < |s| ==> !('A' <= s[i] <= 'Z')
    ensures CleanLevel(s) == s
  {
    RemoveSpacesKeepsSpaceFree(s);
    LowerNoCapitals(s);
  }

  lemma TabbedGoldIsBronze()
    ensures GetMembershipLimits(Some("gold\t")) == Rules(Bronze)
  {
    TabbedGoldClean();
    forall t: Tier ensures "gold\t" != TierName(t) {
      assert |TierName(t)| != 5;
    }
  }

  /** The two readings part on a trailing tab: the same claim gets the
      gold row through `load_user` (editing) and the bronze row through
      `jwt_required_local` (creating). At creation the bronze row only
      matters for an admin: anyone else is refused at the gate first. */
  lemma LevelReadingsPartOnTab()
    ensures GetMembershipLimits(Some(LoadedLevel(Some("gold\t")))) == Rules(Gold)
    ensures GetMembershipLimits(Some(TokenLevel(Some("gold\t")))) == Rules(Bronze)
    ensures Rules(Gold) != Rules(Bronze)
  {
    LoadedLevelDropsTab();
    TokenLevelKeepsTab();
  }

  // ---------------------------------------------------------------------
  // Properties of the gates

  /** The prefix check is exact: a lower-case scheme or a missing space is
      refused whatever the token. */
  lemma BearerPrefixExact(decode: string -> Decoded)
    ensures JwtRequiredLocal("bearer abc", decode) == Err(TokenRequired)
    ensures JwtRequiredLocal("Bearerabc", decode) == Err(TokenRequired)
    ensures JwtRequiredLocal("", decode) == Err(TokenRequired)
  {
    assert "bearer abc"[..7] != BearerPrefix by { assert "bearer abc"[0] == 'b'; }
    assert "Bearerabc"[..7] != BearerPrefix by { assert "Bearerabc"[6] == 'a'; }
  }

  /** A token without a membership level is read as platinum, and every
      level that reaches the handlers is already clean, so cleaning it again
      (as the membership gate and the quota rules do) changes nothing. */
  lemma TokenLevelIsClean(p: Payload)
    ensures p.membershipLevel.None? ==> GetMembershipLimits(Some(BuildCurrentUser(p).membershipLevel)) == Rules(Platinum)
    ensures CleanLevel(BuildCurrentUser(p).membershipLevel) == BuildCurrentUser(p).membershipLevel
  {
    if p.membershipLevel.None? {
      MissingLevelReadsPlatinum(p);
      LimitsOfTierName(Platinum);
    }
  }

  /** A payload without a level claim yields the platinum tier name. */
  lemma MissingLevelReadsPlatinum(p: Payload)
    requires p.membershipLevel.None?
    ensures BuildCurrentUser(p).membershipLevel == TierName(Platinum)
  {
  }

  /** A tier name written into the token at login comes back unchanged
      and selects that tier's row of the table. */
  lemma TokenKeepsTier(p: Payload, t: Tier)
    requires p.membershipLevel == Some(TierName(t))
    ensures BuildCurrentUser(p).membershipLevel == TierName(t)
    ensures GetMembershipLimits(Some(BuildCurrentUser(p).membershipLevel)) == Rules(t)
  {
    TierNameClean(t);
  }

  /** The gate in front of post creation allows the four tier names. */
  const CreateAllowed: seq<string> := ["platinum", "gold", "silver", "bronze"]

  /** The tiers in the order the creation gate lists them. */
  const CreateOrder: seq<Tier> := [Platinum, Gold, Silver, Bronze]

  lemma CreateAllowedLowered()
    ensures |CreateAllowed| == |CreateOrder|
    ensures forall i :: 0 <= i < |CreateOrder| ==> Lower(CreateAllowed[i]) == TierName(CreateOrder[i])
  {
    forall i | 0 <= i < |CreateOrder|
      ensures Lower(CreateAllowed[i]) == TierName(CreateOrder[i])
    {
      assert CreateAllowed[i] == TierName(CreateOrder[i]);
      TierNameLower(CreateOrder[i]);
    }
  }

  /** A gate whose allow-list lowers to the tier names admits a
      non-admin whose level is one of them ... */
  lemma GateAdmitsTier(allowed: seq<string>, order: seq<Tier>, u: CurrentUser, t: Tier)
    requires |allowed| == |order|
    requires forall i :: 0 <= i < |order| ==> Lower(allowed[i]) == TierName(order[i])
    requires t in order
    requires CleanLevel(u.membershipLevel) == u.membershipLevel
    requires u.membershipLevel == TierName(t)
    ensures MembershipRequired(allowed, Some(u)).Ok?
  {
    var i :| 0 <= i < |order| && order[i] == t;
    assert Lower(allowed[i]) == CleanLevel(u.membershipLevel);
  }

  /** ... and admits no other clean non-admin level. */
  lemma GateAdmitsOnlyTiers(allowed: seq<string>, order: seq<Tier>, u: CurrentUser)
    requires |allowed| == |order|
    requires forall i :: 0 <= i < |order| ==> Lower(allowed[i]) == TierName(order[i])
    requires !IsAdminRole(u)
    requires CleanLevel(u.membershipLevel) == u.membershipLevel
    requires MembershipRequired(allowed, Some(u)).Ok?
    ensures exists t :: u.membershipLevel == TierName(t)
  {
    var i :| 0 <= i < |allowed| && Lower(allowed[i]) == CleanLevel(u.membershipLevel);
    assert u.membershipLevel == TierName(order[i]);
  }

  /** A gate whose allow-list lowers to all the tier names admits a clean
      non-admin level exactly when it is a tier name. */
  lemma GateOverTierNames(allowed: seq<string>, order: seq<Tier>, u: CurrentUser)
    requires |allowed| == |order|
    requires forall i :: 0 <= i < |order| ==> Lower(allowed[i]) == TierName(order[i])
    requires forall t: Tier :: t in order
    requires CleanLevel(u.membershipLevel) == u.membershipLevel
    ensures MembershipRequired(allowed, Some(u)).Ok? <==>
            (IsAdminRole(u) || exists t :: u.membershipLevel == TierName(t))
  {
    if !IsAdminRole(u) {
      if exists t :: u.membershipLevel == TierName(t) {
        var t :| u.membershipLevel == TierName(t);
        GateAdmitsTier(allowed, order, u, t);
      }
      if MembershipRequired(allowed, Some(u)).Ok? {
        GateAdmitsOnlyTiers(allowed, order, u);
      }
    }
  }

  /** Behind the creation gate, a non-admin passes exactly when the level
      is one of the four tier names; an admin passes whatever the level. */
  lemma CreateGateAdmitsTiers(u: CurrentUser)
    requires CleanLevel(u.membershipLevel) == u.membershipLevel
    ensures MembershipRequired(CreateAllowed, Some(u)).Ok? <==>
            (IsAdminRole(u) || exists t :: u.membershipLevel == TierName(t))
  {
    CreateAllowedLowered();
    forall t: Tier ensures t in CreateOrder {
      assert CreateOrder[match t case Platinum => 0 case Gold => 1 case Silver => 2 case Bronze => 3] == t;
    }
    GateOverTierNames(CreateAllowed, CreateOrder, u);
  }

  /** Unknown levels are not forgiven at the gate: a non-admin whose clean
      level is no tier name (say "diamond") is refused with 403, although
      the quota rules would have treated the same level as bronze. */
  lemma UnknownLevelRefusedAtGate(u: CurrentUser)
    requires CleanLevel(u.membershipLevel) == u.membershipLevel
    requires forall t :: u.membershipLevel != TierName(t)
    requires !IsAdminRole(u)
    ensures MembershipRequired(CreateAllowed, Some(u)) == Err(LevelNotAllowed(u.membershipLevel))
    ensures Code(MembershipRequired(CreateAllowed, Some(u)).error) == 403
    ensures GetMembershipLimits(Some(u.membershipLevel)) == Rules(Bronze)
  {
    CreateGateAdmitsTiers(u);
  }
}

=== FILE: http.dfy ===
/** The error replies the routes and decorators produce, with their HTTP
    status codes, and the result type every decision returns. */
module Http {
  import opened MembershipRules

  datatype ErrorKind =
    | InvalidMembershipLevel(raw: string)         // login: empty normalised level
    | TokenRequired                               // no "Bearer " header
    | TokenExpired                                // expired signature
    | TokenInvalid                                // any other token failure
    | NotAuthenticated                            // membership gate without a user
    | LevelNotAllowed(level: string)              // membership gate refused the level
    | NotLoggedIn                                 // login gate without a user
    | MissingFields(fields: seq<string>)          // required post fields absent or falsy
    | WeeklyLimitReached                          // weekly post quota used up
    | WordLimitExceeded(limit: Limits, used: nat) // post longer than the tier allows
    | NotAuthorized                               // neither owner nor admin
    | NotFound                                    // no post with that id (abort 404)
    | PostNotFound                                // no post with that id or slug
    | SaveFailed                                  // the database refused the row
    | InternalError                               // an exception the route does not catch

  /** The HTTP status each error is answered with. */
  function Code(e: ErrorKind): nat {
    match e
    case InvalidMembershipLevel(_) => 400
    case TokenRequired => 401
    case TokenExpired => 401
    case TokenInvalid => 401
    case NotAuthenticated => 401
    case LevelNotAllowed(_) => 403
    case NotLoggedIn => 401
    case MissingFields(_) => 400
    case WeeklyLimitReached => 403
    case WordLimitExceeded(_, _) => 400
    case NotAuthorized => 403
    case NotFound => 404
    case PostNotFound => 404
    case SaveFailed => 500
    case InternalError => 500
  }

  /** The outcome of a decision: the value handed on, or the error reply. */
  datatype Result<+T> = Ok(value: T) | Err(error: ErrorKind) {

    predicate IsFailure() {
      Err?
    }

    function PropagateFailure<U>(): Result<U>
      requires Err?
    {
      Err(error)
    }

    function Extract(): T
      requires Ok?
    {
      value
    }
  }
}

=== FILE: membership_rules.dfy ===
/** The membership table and the two quota predicates built on it, plus the
    word counter that measures a post's content blocks. */
module MembershipRules {
  import opened Values
  import opened PyText

  datatype Tier = Bronze | Silver | Gold | Platinum

  /** A weekly post quota: a finite number of posts, or no limit at all
      (the table's `math.inf`). */
  datatype PostQuota = Finite(n: nat) | Unlimited

  datatype Limits = Limits(maxPostsPerWeek: PostQuota, maxWordsPerPost: nat)

  /** The table key of each tier. */
  function TierName(t: Tier): string {
    match t
    case Bronze => "bronze"
    case Silver => "silver"
    case Gold => "gold"
    case Platinum => "platinum"
  }

  /** The position of a tier in the order bronze < silver < gold < platinum. */
  function Rank(t: Tier): nat {
    match t
    case Bronze => 0
    case Silver => 1
    case Gold => 2
    case Platinum => 3
  }

  /** MEMBERSHIP_RULES: posts per week and words per post of each tier. */
  function Rules(t: Tier): (r: Limits)
    ensures r.maxWordsPerPost == 600 + 300 * Rank(t)
    ensures r.maxPostsPerWeek.Unlimited? <==> t == Platinum
    ensures t != Platinum ==> r.maxPostsPerWeek == Finite(2 * Rank(t) + 1)
  {
    match t
    case Bronze => Limits(Finite(1), 600)
    case Silver => Limits(Finite(3), 900)
    case Gold => Limits(Finite(5), 1200)
    case Platinum => Limits(Unlimited, 1500)
  }

  /** `count < quota`, where every count is below an unlimited quota. */
  predicate Below(count: nat, q: PostQuota) {
    q.Unlimited? || count < q.n
  }

  /** Quota `a` is no larger than quota `b`. */
  predicate QuotaLe(a: PostQuota, b: PostQuota) {
    b.Unlimited? || (a.Finite? && a.n <= b.n)
  }

  /** Exact lookup of a key in the table: the tier whose name it is. */
  function LookupTier(key: string): (r: Option<Tier>)
    ensures forall t :: r == Some(t) <==> key == TierName(t)
  {
    if key == "bronze" then Some(Bronze)
    else if key == "silver" then Some(Silver)
    else if key == "gold" then Some(Gold)
    else if key == "platinum" then Some(Platinum)
    else None
  }

  // ---------------------------------------------------------------------
  // Level normalisation: `level.replace(" ", "").lower()`

  /** Removes every space character and lower-cases. The result holds no
      space and is never longer than the input. */
  function CleanLevel(s: string): (r: string)
    ensures ' ' !in r
    ensures |r| <= |s|
  {
    Lower(RemoveSpaces(s))
  }

  /** Cleaning a clean level changes nothing. */
  lemma CleanLevelIdempotent(s: string)
    ensures CleanLevel(CleanLevel(s)) == CleanLevel(s)
  {
    var c := CleanLevel(s);
    RemoveSpacesKeepsSpaceFree(c);
    LowerIdempotent(RemoveSpaces(s));
  }

  /** A space anywhere in a level makes no difference. */
  lemma CleanLevelIgnoresSpace(a: string, b: string)
    ensures CleanLevel(a + " " + b) == CleanLevel(a + b)
  {
    var sb := " " + b;
    assert a + " " + b == a + sb;
    assert sb[0] == ' ' && sb[1..] == b;
    assert RemoveSpaces(sb) == RemoveSpaces(b);
    RemoveSpacesAppend(a, sb);
    RemoveSpacesAppend(a, b);
  }

  lemma {:induction false} RemoveSpacesLower(s: string)
    ensures RemoveSpaces(Lower(s)) == Lower(RemoveSpaces(s))
    decreases |s|
  {
    if s != [] {
      assert Lower(s)[1..] == Lower(s[1..]);
      RemoveSpacesLower(s[1..]);
    }
  }

  /** Letter case in a level makes no difference. */
  lemma CleanLevelIgnoresCase(s: string)
    ensures CleanLevel(Lower(s)) == CleanLevel(s)
  {
    RemoveSpacesLower(s);
    LowerIdempotent(RemoveSpaces(s));
  }

  // ---------------------------------------------------------------------
  // get_membership_limits, can_user_post, validate_post_length

  /** `get_membership_limits(level)`: a missing or empty level reads as
      the empty name; the cleaned name selects its row, and any name that
      is not a tier falls back to the bronze row. */
  function GetMembershipLimits(level: Option<string>): (r: Limits)
    ensures forall t :: CleanLevel(level.GetOr("")) == TierName(t) ==> r == Rules(t)
    ensures (forall t :: CleanLevel(level.GetOr("")) != TierName(t)) ==> r == Rules(Bronze)
  {
    var key := CleanLevel(level.GetOr(""));
    Rules(LookupTier(key).GetOr(Bronze))
  }

  /** `can_user_post(user, n)`, where `level` is the user's
      `membership_level` entry (None when the key is absent, read as
      "bronze"). The level is cleaned here and again inside the table
      lookup. */
  function CanUserPost(level: Option<string>, weekPosts: nat): (r: bool)
    ensures forall t :: CleanLevel(level.GetOr("bronze")) == TierName(t)
                        ==> (r <==> Below(weekPosts, Rules(t).maxPostsPerWeek))
    ensures (forall t :: CleanLevel(level.GetOr("bronze")) != TierName(t)) ==> (r <==> weekPosts < 1)
  {
    var clean := CleanLevel(level.GetOr("bronze"));
    CleanLevelIdempotent(level.GetOr("bronze"));
    var limits := GetMembershipLimits(Some(clean));
    Below(weekPosts, limits.maxPostsPerWeek)
  }

  /** `validate_post_length(user, words)`, with `level` as in CanUserPost. */
  function ValidatePostLength(level: Option<string>, words: nat): (r: bool)
    ensures forall t :: CleanLevel(level.GetOr("bronze")) == TierName(t)
                        ==> (r <==> words <= Rules(t).maxWordsPerPost)
    ensures (forall t :: CleanLevel(level.GetOr("bronze")) != TierName(t)) ==> (r <==> words <= 600)
  {
    var clean := CleanLevel(level.GetOr("bronze"));
    CleanLevelIdempotent(level.GetOr("bronze"));
    var limits := GetMembershipLimits(Some(clean));
    words <= limits.maxWordsPerPost
  }

  /** `validate_post_length` measures against the very limits
      `get_membership_limits` reports for the level: the extra cleaning
      changes nothing. */
  lemma LengthAgainstReportedLimits(level: string, words: nat)
    ensures ValidatePostLength(Some(level), words) <==> words <= GetMembershipLimits(Some(level)).maxWordsPerPost
  {
    CleanLevelIdempotent(level);
  }

  /** Every tier name is clean. */
  lemma TierNameClean(t: Tier)
    ensures CleanLevel(TierName(t)) == TierName(t)
  {
    RemoveSpacesKeepsSpaceFree(TierName(t));
    assert RemoveSpaces(TierName(t)) == TierName(t);
    TierNameLower(t);
  }

  /** Every tier name selects its own row of the table. */
  lemma LimitsOfTierName(t: Tier)
    ensures GetMembershipLimits(Some(TierName(t))) == Rules(t)
  {
    TierNameClean(t);
  }

  /** Every tier name is written in lower case. */
  lemma TierNameLower(t: Tier)
    ensures Lower(TierName(t)) == TierName(t)
  {
    LowerNoCapitals(TierName(t));
  }

  /** The weekly quota of each tier: a strict comparison against 1, 3 and 5
      posts, and no limit for platinum. */
  lemma WeeklyQuotaByTier(t: Tier, weekPosts: nat)
    ensures t == Bronze ==> (CanUserPost(Some(TierName(t)), weekPosts) <==> weekPosts < 1)
    ensures t == Silver ==> (CanUserPost(Some(TierName(t)), weekPosts) <==> weekPosts < 3)
    ensures t == Gold ==> (CanUserPost(Some(TierName(t)), weekPosts) <==> weekPosts < 5)
    ensures t == Platinum ==> CanUserPost(Some(TierName(t)), weekPosts)
  {
    TierNameClean(t);
  }

  /** A platinum member can always post, however the level is spaced or
      capitalised. */
  lemma PlatinumNeverBlocked(level: string, weekPosts: nat)
    requires CleanLevel(level) == "platinum"
    ensures CanUserPost(Some(level), weekPosts)
  {
    assert CleanLevel(Some(level).GetOr("bronze")) == TierName(Platinum);
  }

  /** The word limit of each tier is inclusive: exactly 600, 900, 1200 or
      1500 words is accepted, one more is refused. */
  lemma WordLimitByTier(t: Tier, words: nat)
    ensures t == Bronze ==> (ValidatePostLength(Some(TierName(t)), words) <==> words <= 600)
    ensures t == Silver ==> (ValidatePostLength(Some(TierName(t)), words) <==> words <= 900)
    ensures t == Gold ==> (ValidatePostLength(Some(TierName(t)), words) <==> words <= 1200)
    ensures t == Platinum ==> (ValidatePostLength(Some(TierName(t)), words) <==> words <= 1500)
    ensures ValidatePostLength(Some(TierName(t)), Rules(t).maxWordsPerPost)
    ensures !ValidatePostLength(Some(TierName(t)), Rules(t).maxWordsPerPost + 1)
  {
    TierNameClean(t);
  }

  /** A user record without a membership level is held to bronze limits. */
  lemma MissingLevelIsBronze(weekPosts: nat, words: nat)
    ensures CanUserPost(None, weekPosts) <==> weekPosts < 1
    ensures ValidatePostLength(None, words) <==> words <= 600
    ensures CanUserPost(None, weekPosts) == CanUserPost(Some("bronze"), weekPosts)
    ensures ValidatePostLength(None, words) == ValidatePostLength(Some("bronze"), words)
  {
    TierNameClean(Bronze);
  }

  /** A missing or empty level, and names that are not tiers after
      cleaning, get the bronze row. */
  lemma UnknownLevelsAreBronze()
    ensures GetMembershipLimits(None) == Rules(Bronze)
    ensures GetMembershipLimits(Some("")) == Rules(Bronze)
    ensures GetMembershipLimits(Some("bronce")) == Rules(Bronze)
    ensures GetMembershipLimits(Some("diamond")) == Rules(Bronze)
  {
    assert CleanLevel("") == "";
  }

  /** Surrounding spaces and capitals do not matter: " Go ld " is gold. */
  lemma SpacedAndCapitalisedGold()
    ensures GetMembershipLimits(Some(" Go ld ")) == Rules(Gold)
  {
    assert RemoveSpaces(" Go ld ") == "Gold";
    assert Lower("Gold") == "gold";
    assert CleanLevel(" Go ld ") == TierName(Gold);
  }

  /** An upper-case level is read as the same tier: "GOLD" is gold. */
  lemma CapitalGold()
    ensures GetMembershipLimits(Some("GOLD")) == Rules(Gold)
  {
    assert RemoveSpaces("GOLD") == "GOLD";
    assert Lower("GOLD") == "gold";
    assert CleanLevel("GOLD") == TierName(Gold);
  }

  /** A space inside the name is removed too: "go ld" is gold. */
  lemma InteriorSpaceIgnored()
    ensures GetMembershipLimits(Some("go ld")) == Rules(Gold)
  {
    assert RemoveSpaces("go ld") == "gold";
    assert CleanLevel("go ld") == TierName(Gold);
  }

  /** Both limits grow with the tier order. */
  lemma LimitsMonotone(a: Tier, b: Tier)
    requires Rank(a) <= Rank(b)
    ensures QuotaLe(Rules(a).maxPostsPerWeek, Rules(b).maxPostsPerWeek)
    ensures Rules(a).maxWordsPerPost <= Rules(b).maxWordsPerPost
  {
  }

  // ---------------------------------------------------------------------
  // count_words_from_blocks

  /** The text of one content block: an object block offers its `text`
      member if truthy, else its `content` member if truthy, else ""; a
      string block is its own text; any other block has the text "". None
      when the chosen member is a truthy non-string, on which Python's
      `.split()` raises. */
  function BlockText(b: Json): (r: Option<string>)
    ensures b.JStr? ==> r == Some(b.s)
    ensures !b.JStr? && !b.JObj? ==> r == Some("")
    ensures b.JObj? && Truthy(Get(b.members, "text")) ==>
              (r.Some? <==> Get(b.members, "text").JStr?) &&
              (r.Some? ==> r.value == Get(b.members, "text").s)
    ensures b.JObj? && !Truthy(Get(b.members, "text")) && Truthy(Get(b.members, "content")) ==>
              (r.Some? <==> Get(b.members, "content").JStr?) &&
              (r.Some? ==> r.value == Get(b.members, "content").s)
    ensures b.JObj? && !Truthy(Get(b.members, "text")) && !Truthy(Get(b.members, "content")) ==>
              r == Some("")
  {
    match b
    case JObj(ms) =>
      var text := Get(ms, "text");
      var content := Get(ms, "content");
      var chosen := if Truthy(text) then text else if Truthy(content) then content else JStr("");
      if chosen.JStr? then Some(chosen.s) else None
    case JStr(s) => Some(s)
    case _ => Some("")
  }

  /** `len(text.split())` for the block's text: the number of maximal
      non-whitespace runs of the text the block offers, and None exactly
      when the block raises. */
  function BlockWords(b: Json): (r: Option<nat>)
    ensures r.None? <==> BlockText(b).None?
    ensures BlockText(b).Some? ==> r == Some(RunCount(BlockText(b).value))
  {
    match BlockText(b)
    case Some(text) =>
      SplitCountsRuns(text);
      Some(|Split(text)|)
    case None => None
  }

  /** Adds two partial totals; None if either is None. */
  function AddCounts(a: Option<nat>, b: Option<nat>): Option<nat> {
    if a.Some? && b.Some? then Some(a.value + b.value) else None
  }

  /** Some block of the list raises. */
  predicate SomeBlockRaises(bs: seq<Json>) {
    exists i :: 0 <= i < |bs| && BlockWords(bs[i]).None?
  }

  lemma SomeBlockRaisesCons(bs: seq<Json>)
    requires bs != []
    ensures SomeBlockRaises(bs) <==> BlockWords(bs[0]).None? || SomeBlockRaises(bs[1..])
  {
    if SomeBlockRaises(bs[1..]) {
      var i :| 0 <= i < |bs[1..]| && BlockWords(bs[1..][i]).None?;
      assert bs[1..][i] == bs[i + 1];
    }
    if SomeBlockRaises(bs) {
      var i :| 0 <= i < |bs| && BlockWords(bs[i]).None?;
      if i > 0 {
        assert bs[1..][i - 1] == bs[i];
      }
    }
  }

  /** The word total of a list of blocks; None when some block raises
      (the loop in the source stops at the first one that does). */
  function WordsInBlocks(bs: seq<Json>): (r: Option<nat>)
    ensures r.None? <==> SomeBlockRaises(bs)
  {
    if bs == [] then Some(0)
    else
      var rest := WordsInBlocks(bs[1..]);
      SomeBlockRaisesCons(bs);
      AddCounts(BlockWords(bs[0]), rest)
  }

  lemma AddCountsAssoc(x: Option<nat>, y: Option<nat>, z: Option<nat>)
    ensures AddCounts(x, AddCounts(y, z)) == AddCounts(AddCounts(x, y), z)
  {
  }

  /** The word total is additive over concatenation of block lists. */
  lemma {:induction false} WordsInBlocksAppend(a: seq<Json>, b: seq<Json>)
    ensures WordsInBlocks(a + b) == AddCounts(WordsInBlocks(a), WordsInBlocks(b))
    decreases |a|
  {
    if a == [] {
      assert a + b == b;
    } else {
      assert (a + b)[0] == a[0];
      assert (a + b)[1..] == a[1..] + b;
      WordsInBlocksAppend(a[1..], b);
      var x := BlockWords(a[0]);
      assert WordsInBlocks(a + b) == AddCounts(x, WordsInBlocks(a[1..] + b));
      AddCountsAssoc(x, WordsInBlocks(a[1..]), WordsInBlocks(b));
    }
  }

  /** A single block contributes exactly its own count, and no blocks
      count zero words. */
  lemma WordsInBlocksBase(b: Json)
    ensures WordsInBlocks([]) == Some(0)
    ensures WordsInBlocks([b]) == BlockWords(b)
  {
    assert [b][0] == b;
    assert [b][1..] == [];
    assert WordsInBlocks([b][1..]) == Some(0);
    AddZero(BlockWords(b));
  }

  lemma AddZero(x: Option<nat>)
    ensures AddCounts(x, Some(0)) == x
  {
  }

  /** `count_words_from_blocks(blocks)`: the word total of what iterating
      `blocks` yields. A list gives its blocks; a string gives one block per
      character; an object gives its keys; a number, boolean or null is not
      iterable and raises. */
  function CountWordsFromBlocks(blocks: Json): (r: Option<nat>)
    ensures Iterate(blocks).Some? ==> r == WordsInBlocks(Iterate(blocks).value)
    ensures blocks.JList? ==> r == WordsInBlocks(blocks.items)
    ensures blocks.JNull? || blocks.JBool? || blocks.JNum? ==> r.None?
    ensures blocks.JStr? ==> r == Some(NonSpaceCount(blocks.s))
    ensures blocks.JObj? ==> r.Some?
  {
    match Iterate(blocks)
    case Some(items) =>
      if blocks.JStr? then
        CharBlocksCount(blocks.s, items);
        WordsInBlocks(items)
      else if blocks.JObj? then
        StringBlocksCount(items);
        WordsInBlocks(items)
      else WordsInBlocks(items)
    case None => None
  }

  /** The characters of `s` that are not whitespace. */
  function NonSpaceCount(s: string): nat {
    if s == [] then 0 else (if IsSpace(s[0]) then 0 else 1) + NonSpaceCount(s[1..])
  }

  /** A one-character text holds one word unless the character is
      whitespace. */
  lemma CharWords(c: char)
    ensures BlockWords(JStr([c])) == Some(if IsSpace(c) then 0 else 1)
  {
    assert BlockText(JStr([c])) == Some([c]);
    assert [c][1..] == [];
    assert Runs([c], false) == (if IsSpace(c) then 0 else 1) + Runs([], true);
  }

  /** Iterating a string yields its characters as blocks, each one word
      unless it is whitespace. */
  lemma {:induction false} CharBlocksCount(s: string, items: seq<Json>)
    requires |items| == |s| && forall i :: 0 <= i < |s| ==> items[i] == JStr([s[i]])
    ensures WordsInBlocks(items) == Some(NonSpaceCount(s))
    decreases |s|
  {
    if s != [] {
      var rest := items[1..];
      assert forall i :: 0 <= i < |s[1..]| ==> rest[i] == JStr([s[1..][i]]) by {
        forall i | 0 <= i < |s[1..]| ensures rest[i] == JStr([s[1..][i]]) {
          assert rest[i] == items[i + 1];
        }
      }
      CharBlocksCount(s[1..], rest);
      CharWords(s[0]);
      SomeBlockRaisesCons(items);
    }
  }

  /** Blocks that are all strings never raise. */
  lemma StringBlocksCount(items: seq<Json>)
    requires forall i :: 0 <= i < |items| ==> items[i].JStr?
    ensures WordsInBlocks(items).Some?
  {
  }
}

=== FILE: post_routes.dfy ===
/** The decisions the post routes take: creating, editing, deleting,
    listing and showing posts. The database is the sequence of stored
    posts (ids and slugs distinct, as the table's keys demand), the weekly
    post count is an input, and `slugify` is an opaque function. */
module PostRoutes {
  import opened Values
  import opened PyText
  import opened MembershipRules
  import opened Http
  import opened Decorators
  import opened Slugs

  /** A stored post: the values its columns hold. A nullable column holds
      `None` for NULL; the blocks are the value of the JSON column. */
  datatype Post = Post(
    id: nat,
    title: string,
    description: string,
    keywords: Option<string>,
    category: Option<string>,
    companyId: Option<int>,
    featuredImage: Option<string>,
    featuredImagePublicId: Option<string>,
    contentBlocks: Json,
    userId: int,
    userName: string,
    wordCount: nat,
    weekNumber: nat,
    slug: string)

  /** A row as a route hands it to the session: the value assigned to each
      column, before the database converts it. The owner id and user name
      are the token's claims, null when absent. */
  datatype Row = Row(
    id: nat,
    title: Json,
    description: Json,
    keywords: Json,
    category: Json,
    companyId: Json,
    featuredImage: Json,
    featuredImagePublicId: Json,
    contentBlocks: Json,
    userId: Json,
    userName: Json,
    wordCount: nat,
    weekNumber: nat,
    slug: string)

  // ---------------------------------------------------------------------
  // What the posts table stores

  /** What writing one value to a column gives: NULL, the value the column
      holds, or a refusal that fails the commit. */
  datatype Cell<T> = Null | Holds(value: T) | Refused

  /** The range of a 32-bit integer column. */
  predicate InInt32(n: int) {
    -0x8000_0000 <= n <= 0x7FFF_FFFF
  }

  /** Text the database reads as a value of a 32-bit integer column. */
  predicate IntegerText(s: string) {
    ParseInt(s).Some? && InInt32(ParseInt(s).value)
  }

  /** The text a value becomes in a text column: a string is kept, a
      number becomes its decimal text and a boolean "true" or "false"; a
      list or an object cannot be written to a text column. */
  function Rendered(v: Json): (r: Cell<string>)
    ensures r.Null? <==> v.JNull?
    ensures r.Refused? <==> v.JList? || v.JObj?
    ensures v.JStr? ==> r == Holds(v.s)
    ensures v.JNum? ==> r.Holds? && ParseInt(r.value) == Some(v.n)
    ensures v.JBool? ==> r.Holds? && r.value != [] && (r.value == "true" <==> v.b)
  {
    match v
    case JNull => Null
    case JBool(b) => Holds(if b then "true" else "false")
    case JNum(n) => ParseIntOfIntText(n); Holds(IntText(n))
    case JStr(s) => Holds(s)
    case _ => Refused
  }

  /** A text written to a `String(max)` column: kept when it fits, cut to
      `max` characters when everything past them is a space, and refused
      otherwise. */
  function Fit(s: string, max: nat): (r: Option<string>)
    ensures |s| <= max ==> r == Some(s)
    ensures r.Some? ==> |r.value| <= max && r.value == s[..|r.value|]
    ensures r.Some? && |s| > max ==> |r.value| == max
    ensures r.Some? ==> forall i :: |r.value| <= i < |s| ==> s[i] == ' '
    ensures r.None? ==> |s| > max && exists i :: max <= i < |s| && s[i] != ' '
  {
    if |s| <= max then Some(s)
    else if forall i :: max <= i < |s| ==> s[i] == ' ' then Some(s[..max])
    else None
  }

  /** A value written to a `String(max)` column: rendered as text, then
      fitted to the column. */
  function VarcharCell(v: Json, max: nat): (r: Cell<string>)
    ensures r.Null? <==> v.JNull?
    ensures r.Holds? ==> |r.value| <= max
    ensures Rendered(v).Holds? && |Rendered(v).value| <= max ==> r == Rendered(v)
    ensures r.Refused? <==> Rendered(v).Refused? || (Rendered(v).Holds? && Fit(Rendered(v).value, max).None?)
  {
    match Rendered(v)
    case Holds(s) => (match Fit(s, max) case Some(t) => Holds(t) case None => Refused)
    case Null => Null
    case Refused => Refused
  }

  /** A value written to a 32-bit `Integer` column: a number in range, or
      text the database reads as one. A boolean, a list, an object and
      anything out of range are refused. */
  function IntegerCell(v: Json): (r: Cell<int>)
    ensures r.Null? <==> v.JNull?
    ensures r.Holds? ==> InInt32(r.value)
    ensures r.Holds? ==> v == JNum(r.value) || (v.JStr? && ParseInt(v.s) == Some(r.value))
    ensures v.JNum? && InInt32(v.n) ==> r == Holds(v.n)
    ensures v.JStr? ==> (r.Holds? <==> IntegerText(v.s))
    ensures v.JBool? || v.JList? || v.JObj? ==> r.Refused?
  {
    match v
    case JNull => Null
    case JNum(n) => if InInt32(n) then Holds(n) else Refused
    case JStr(s) => if IntegerText(s) then Holds(ParseInt(s).value) else Refused
    case _ => Refused
  }

  /** The value a nullable column holds for a cell that was not refused. */
  function Column<T>(c: Cell<T>): Option<T>
    requires !c.Refused?
  {
    if c.Holds? then Some(c.value) else None
  }

  /** The column constraints every stored post meets: the length limits of
      the text columns and the range of the integer columns. */
  predicate Columns(p: Post) {
    && |p.title| <= 255
    && |p.description| <= 500
    && (p.keywords.Some? ==> |p.keywords.value| <= 255)
    && (p.category.Some? ==> |p.category.value| <= 100)
    && (p.companyId.Some? ==> InInt32(p.companyId.value))
    && InInt32(p.userId)
    && |p.userName| <= 150
    && |p.slug| <= 255
  }

  /** The database accepts the row: no required column (title,
      description, owner id, user name) is NULL, no value is refused by its
      column, and the slug is held by no other row. */
  predicate Writable(row: Row, taken: set<string>) {
    && VarcharCell(row.title, 255).Holds?
    && VarcharCell(row.description, 500).Holds?
    && !VarcharCell(row.keywords, 255).Refused?
    && !VarcharCell(row.category, 100).Refused?
    && !IntegerCell(row.companyId).Refused?
    && !Rendered(row.featuredImage).Refused?
    && !Rendered(row.featuredImagePublicId).Refused?
    && IntegerCell(row.userId).Holds?
    && VarcharCell(row.userName, 150).Holds?
    && Fit(row.slug, 255).Some? && Fit(row.slug, 255).value !in taken
  }

  /** `db.session.commit()` for an inserted or updated row, `taken` being
      the slugs of the other rows: the stored post when the database
      accepts the row, `SaveFailed` (500, after a rollback) otherwise. */
  function Commit(row: Row, taken: set<string>): (r: Result<Post>)
    ensures r.Ok? <==> Writable(row, taken)
    ensures r.Err? ==> r.error == SaveFailed
    ensures r.Ok? ==> Columns(r.value) && r.value.slug !in taken
    ensures r.Ok? ==> Fit(row.slug, 255) == Some(r.value.slug)
                      && IntegerCell(row.userId) == Holds(r.value.userId)
    ensures r.Ok? ==> r.value.id == row.id && r.value.contentBlocks == row.contentBlocks
                      && r.value.wordCount == row.wordCount && r.value.weekNumber == row.weekNumber
    ensures r.Ok? ==> VarcharCell(row.title, 255) == Holds(r.value.title)
                      && VarcharCell(row.description, 500) == Holds(r.value.description)
                      && VarcharCell(row.userName, 150) == Holds(r.value.userName)
    ensures r.Ok? ==> r.value.keywords == Column(VarcharCell(row.keywords, 255))
                      && r.value.category == Column(VarcharCell(row.category, 100))
                      && r.value.companyId == Column(IntegerCell(row.companyId))
                      && r.value.featuredImage == Column(Rendered(row.featuredImage))
                      && r.value.featuredImagePublicId == Column(Rendered(row.featuredImagePublicId))
  {
    if !Writable(row, taken) then Err(SaveFailed)
    else
      Ok(Post(row.id, VarcharCell(row.title, 255).value, VarcharCell(row.description, 500).value,
              Column(VarcharCell(row.keywords, 255)), Column(VarcharCell(row.category, 100)),
              Column(IntegerCell(row.companyId)), Column(Rendered(row.featuredImage)),
              Column(Rendered(row.featuredImagePublicId)), row.contentBlocks,
              IntegerCell(row.userId).value, VarcharCell(row.userName, 150).value,
              row.wordCount, row.weekNumber, Fit(row.slug, 255).value))
  }

  /** A stored text as the JSON value that writes it back: the string, or
      null for NULL. */
  function TextJson(s: Option<string>): Json {
    if s.Some? then JStr(s.value) else JNull
  }

  /** A stored integer as the JSON value that writes it back. */
  function IntJson(n: Option<int>): Json {
    if n.Some? then JNum(n.value) else JNull
  }

  /** The row that writes a stored post back as it is. */
  function RowOf(p: Post): Row {
    Row(p.id, JStr(p.title), JStr(p.description), TextJson(p.keywords), TextJson(p.category),
        IntJson(p.companyId), TextJson(p.featuredImage), TextJson(p.featuredImagePublicId),
        p.contentBlocks, JNum(p.userId), JStr(p.userName), p.wordCount, p.weekNumber, p.slug)
  }

  /** Writing a stored post back, its slug held by no other row, stores it
      unchanged. */
  lemma CommitRoundTrip(p: Post, taken: set<string>)
    requires Columns(p) && p.slug !in taken
    ensures Commit(RowOf(p), taken) == Ok(p)
  {
    var row := RowOf(p);
    assert VarcharCell(row.title, 255) == Holds(p.title);
    assert VarcharCell(row.description, 500) == Holds(p.description);
    assert Column(VarcharCell(row.keywords, 255)) == p.keywords;
    assert Column(VarcharCell(row.category, 100)) == p.category;
    assert Column(IntegerCell(row.companyId)) == p.companyId;
    assert Column(Rendered(row.featuredImage)) == p.featuredImage;
    assert Column(Rendered(row.featuredImagePublicId)) == p.featuredImagePublicId;
    assert VarcharCell(row.userName, 150) == Holds(p.userName);
  }

  /** A committed post is a fixed point of the commit: writing it back
      stores the same post. */
  lemma CommitStable(row: Row, taken: set<string>)
    requires Commit(row, taken).Ok?
    ensures Commit(RowOf(Commit(row, taken).value), taken) == Commit(row, taken)
  {
    CommitRoundTrip(Commit(row, taken).value, taken);
  }

  // ---------------------------------------------------------------------
  // Lookups in the store

  /** The stored posts that `keep` selects, in stored order. */
  function Filter(posts: seq<Post>, keep: Post -> bool): (r: seq<Post>)
    ensures |r| <= |posts|
    ensures forall p :: p in r <==> p in posts && keep(p)
  {
    if posts == [] then []
    else (if keep(posts[0]) then [posts[0]] else []) + Filter(posts[1..], keep)
  }

  /** The first stored post that `keep` selects, if any (`query.get`,
      `filter_by(...).first()`). */
  function Find(posts: seq<Post>, keep: Post -> bool): (r: Option<Post>)
    ensures r.None? <==> forall p :: p in posts ==> !keep(p)
    ensures r.Some? ==> r.value in posts && keep(r.value)
  {
    if posts == [] then None
    else if keep(posts[0]) then Some(posts[0])
    else Find(posts[1..], keep)
  }

  /** The stored posts whose id is not `id`: the other rows. */
  function Others(posts: seq<Post>, id: nat): seq<Post> {
    Filter(posts, (p: Post) => p.id != id)
  }

  /** The slugs already taken. */
  function SlugsOf(posts: seq<Post>): set<string> {
    set p | p in posts :: p.slug
  }

  /** `Post.query.get_or_404(id)` */
  function Stored(posts: seq<Post>, id: nat): (r: Result<Post>)
    ensures r.Err? <==> forall p :: p in posts ==> p.id != id
    ensures r.Err? ==> r.error == NotFound
    ensures r.Ok? ==> r.value in posts && r.value.id == id
  {
    match Find(posts, (p: Post) => p.id == id)
    case None => Err(NotFound)
    case Some(p) => Ok(p)
  }

  // ---------------------------------------------------------------------
  // Request data

  /** `request.get_json() or {}`, then used as a dict: a falsy body reads
      as the empty object; a truthy body that is not an object fails on
      `.get` (AttributeError, answered with 500). */
  function RequestData(body: Json): (r: Result<seq<Member>>)
    ensures r.Ok? <==> !Truthy(body) || body.JObj?
    ensures r.Ok? && Truthy(body) ==> r.value == body.members
    ensures r.Ok? && !Truthy(body) ==> r.value == []
    ensures r.Err? ==> r.error == InternalError
  {
    if !Truthy(body) then Ok([])
    else if body.JObj? then Ok(body.members)
    else Err(InternalError)
  }

  /** The fields `create_post` insists on. */
  const RequiredFields: seq<string> := ["title", "description", "content_blocks"]

  /** `[f for f in fields if not data.get(f)]` */
  function Missing(fields: seq<string>, data: seq<Member>): (r: seq<string>)
    ensures |r| <= |fields|
    ensures forall f :: f in r <==> f in fields && !Truthy(Get(data, f))
  {
    if fields == [] then []
    else (if !Truthy(Get(data, fields[0])) then [fields[0]] else []) + Missing(fields[1..], data)
  }

  /** `count_words_from_blocks`, with the exception it can raise answered
      with 500. */
  function CountOrCrash(blocks: Json): (r: Result<nat>)
    ensures r.Ok? <==> CountWordsFromBlocks(blocks).Some?
    ensures r.Ok? ==> r.value == CountWordsFromBlocks(blocks).value
    ensures r.Err? ==> r.error == InternalError
  {
    match CountWordsFromBlocks(blocks)
    case Some(n) => Ok(n)
    case None => Err(InternalError)
  }

  /** `f"{user_id}"`: the token's subject, or "None" when it has none. */
  function OwnerText(id: Option<string>): string {
    id.GetOr("None")
  }

  // ---------------------------------------------------------------------
  // Ownership

  /** The subject read as an integer by `int()`, when it is one. */
  function SubjectNumber(id: Option<string>): (r: Option<int>)
    ensures id.None? ==> r.None?
    ensures forall n: nat :: id == Some(Decimal(n)) ==> r == Some(n)
  {
    ParseIntOfEveryDecimal();
    if id.None? then None else ParseInt(id.value)
  }

  /** The owner-or-admin rule of edit and delete: the post's owner id
      equals the user's id read as an integer, or the role is "admin". */
  predicate MayModify(p: Post, u: CurrentUser): (b: bool)
    ensures IsAdminRole(u) ==> b
    ensures forall n: nat :: u.id == Some(Decimal(n)) ==> (b <==> n == p.userId || IsAdminRole(u))
    ensures u.id.None? ==> (b <==> IsAdminRole(u))
  {
    SubjectNumber(u.id) == Some(p.userId) || IsAdminRole(u)
  }

  /** `post.user_id != int(user["id"]) and user.get("role") != "admin"`:
      `int()` is evaluated first, so a subject that is no integer makes
      the route fail with 500 even for an admin; otherwise the post is
      handed on exactly when the user may modify it, and 403 answers the
      rest. */
  function OwnerCheck(p: Post, u: CurrentUser): (r: Result<Post>)
    ensures SubjectNumber(u.id).None? ==> r == Err(InternalError)
    ensures SubjectNumber(u.id).Some? ==> (r.Ok? <==> MayModify(p, u))
    ensures r.Ok? ==> r.value == p
    ensures r.Err? && SubjectNumber(u.id).Some? ==> r.error == NotAuthorized && Code(r.error) == 403
  {
    match SubjectNumber(u.id)
    case None => Err(InternalError)
    case Some(n) =>
      if p.userId != n && !IsAdminRole(u) then Err(NotAuthorized) else Ok(p)
  }

  // ---------------------------------------------------------------------
  // create_post

  /** The checks `create_post` makes before it counts words, all passed:
      nothing required is missing, the weekly count could be queried (the
      subject, if any, is text the integer `user_id` column can be compared
      with), and the weekly quota is not used up. */
  predicate ReadyToCount(user: CurrentUser, data: seq<Member>, weekPosts: nat) {
    && Missing(RequiredFields, data) == []
    && (user.id.None? || IntegerText(user.id.value))
    && CanUserPost(Some(CleanLevel(user.membershipLevel)), weekPosts)
  }

  /** The row `create_post` inserts, from the request, the user, the
      counted words, the week and the slug. */
  function NewRow(user: CurrentUser, data: seq<Member>, category: Json, words: nat, week: nat,
                  slug: string, newId: nat): Row
  {
    Row(newId, Get(data, "title"), Get(data, "description"), Get(data, "keywords"),
        category, Get(data, "company_id"), Get(data, "featured_image"),
        Get(data, "featured_image_public_id"), GetOrDefault(data, "content_blocks", JList([])),
        TextJson(user.id), TextJson(user.username), words, week, slug)
  }

  /** `create_post`, behind the token and membership gates. In order:
      the request data; the required fields (400 naming the missing ones);
      the weekly count, which compares the integer `user_id` column with
      the subject's text and fails (500) unless the database reads it as a
      32-bit integer; the weekly quota (403); the word count of the blocks
      (500 when it raises); the word limit (400 with the tier's limits and
      the count); the unique slug; `data["category"]`, read without a
      default (500 when absent); and the commit of the new row. Admins
      meet the same quotas as everyone else. */
  function CreatePost(user: CurrentUser, body: Json, week: nat, weekPosts: nat,
                      posts: seq<Post>, slugify: Json -> string, newId: nat): (r: Result<Post>)
    ensures r.Ok? ==> RequestData(body).Ok?
                      && ReadyToCount(user, RequestData(body).value, weekPosts)
                      && HasKey(RequestData(body).value, "category")
    ensures r.Ok? ==> ValidatePostLength(Some(CleanLevel(user.membershipLevel)), r.value.wordCount)
    ensures r.Ok? ==> CountWordsFromBlocks(r.value.contentBlocks) == Some(r.value.wordCount)
    ensures r.Ok? ==> r.value.slug !in SlugsOf(posts)
                      && Some(r.value.slug) == Fit(UniqueSlug(slugify(Get(RequestData(body).value, "title")),
                                                              OwnerText(user.id), SlugsOf(posts)), 255)
    ensures r.Ok? ==> user.id.Some? && ParseInt(user.id.value) == Some(r.value.userId)
                      && user.username.Some?
    ensures r.Ok? ==> r.value.id == newId && r.value.weekNumber == week && Columns(r.value)
    ensures RequestData(body).Ok? && Missing(RequiredFields, RequestData(body).value) != [] ==>
              r == Err(MissingFields(Missing(RequiredFields, RequestData(body).value)))
    ensures RequestData(body).Ok? && Missing(RequiredFields, RequestData(body).value) == []
            && user.id.Some? && !IntegerText(user.id.value) ==>
              r == Err(InternalError)
    ensures RequestData(body).Ok? && Missing(RequiredFields, RequestData(body).value) == []
            && (user.id.None? || IntegerText(user.id.value))
            && !CanUserPost(Some(CleanLevel(user.membershipLevel)), weekPosts) ==>
              r == Err(WeeklyLimitReached)
    ensures RequestData(body).Ok? ==>
              var data := RequestData(body).value;
              var level := Some(CleanLevel(user.membershipLevel));
              var n := CountWordsFromBlocks(GetOrDefault(data, "content_blocks", JList([])));
              ReadyToCount(user, data, weekPosts) && n.Some? && !ValidatePostLength(level, n.value) ==>
                r == Err(WordLimitExceeded(GetMembershipLimits(level), n.value))
    ensures RequestData(body).Ok? ==>
              var data := RequestData(body).value;
              var n := CountWordsFromBlocks(GetOrDefault(data, "content_blocks", JList([])));
              ReadyToCount(user, data, weekPosts) && n.Some?
              && ValidatePostLength(Some(CleanLevel(user.membershipLevel)), n.value)
              && HasKey(data, "category") ==>
                r == Commit(NewRow(user, data, Lookup(data, "category").value, n.value, week,
                                   UniqueSlug(slugify(Get(data, "title")), OwnerText(user.id), SlugsOf(posts)),
                                   newId),
                            SlugsOf(posts))
    ensures r.Err? && r.error.WordLimitExceeded? ==>
              r.error.limit == GetMembershipLimits(Some(CleanLevel(user.membershipLevel)))
              && r.error.used > r.error.limit.maxWordsPerPost
              && CanUserPost(Some(CleanLevel(user.membershipLevel)), weekPosts)
  {
    var level := CleanLevel(user.membershipLevel);
    var data :- RequestData(body);
    var missing := Missing(RequiredFields, data);
    if missing != [] then Err(MissingFields(missing))
    else if user.id.Some? && !IntegerText(user.id.value) then Err(InternalError)
    else if !CanUserPost(Some(level), weekPosts) then Err(WeeklyLimitReached)
    else
      var blocks := GetOrDefault(data, "content_blocks", JList([]));
      var words :- CountOrCrash(blocks);
      if !ValidatePostLength(Some(level), words) then
        LengthAgainstReportedLimits(level, words);
        Err(WordLimitExceeded(GetMembershipLimits(Some(level)), words))
      else
        var slug := UniqueSlug(slugify(Get(data, "title")), OwnerText(user.id), SlugsOf(posts));
        match Lookup(data, "category")
        case None => Err(InternalError)
        case Some(category) => Commit(NewRow(user, data, category, words, week, slug, newId), SlugsOf(posts))
  }

  /** POST / with its decorators: the token gate, then the membership gate
      over the four tier names, then `create_post` for the admitted user.
      A refusal by either gate is the route's reply. */
  function CreatePostRoute(header: string, decode: string -> Decoded, body: Json, week: nat,
                           weekPosts: nat, posts: seq<Post>, slugify: Json -> string,
                           newId: nat): (r: Result<Post>)
    ensures !HasBearerPrefix(header) ==> r == Err(TokenRequired)
    ensures JwtRequiredLocal(header, decode).Err? ==> r == Err(JwtRequiredLocal(header, decode).error)
    ensures JwtRequiredLocal(header, decode).Ok? ==>
              var gate := MembershipRequired(CreateAllowed, Some(JwtRequiredLocal(header, decode).value));
              (gate.Err? ==> r == Err(gate.error))
              && (gate.Ok? ==> r == CreatePost(gate.value, body, week, weekPosts, posts, slugify, newId))
  {
    var user :- JwtRequiredLocal(header, decode);
    var admitted :- MembershipRequired(CreateAllowed, Some(user));
    CreatePost(admitted, body, week, weekPosts, posts, slugify, newId)
  }

  // ---------------------------------------------------------------------
  // edit_post

  /** `data.get(key, stored)`: the request's value when it has the key,
      even a null one; the stored value otherwise. */
  function Merge(data: seq<Member>, key: string, stored: Json): (r: Json)
    ensures !HasKey(data, key) ==> r == stored
    ensures HasKey(data, key) ==> Lookup(data, key) == Some(r)
  {
    GetOrDefault(data, key, stored)
  }

  /** The slug after an edit: a fresh unique slug, made from the new title
      and the editor's id, when the request carries a title different from
      the stored one (a number or a boolean never equals stored text); the
      stored slug otherwise. */
  function EditedSlug(post: Post, data: seq<Member>, u: CurrentUser, posts: seq<Post>,
                      slugify: Json -> string): (slug: string)
    ensures !HasKey(data, "title") || Get(data, "title") == JStr(post.title) ==> slug == post.slug
    ensures HasKey(data, "title") && Get(data, "title") != JStr(post.title) ==>
              slug !in SlugsOf(posts)
              && slug == UniqueSlug(slugify(Get(data, "title")), OwnerText(u.id), SlugsOf(posts))
  {
    if HasKey(data, "title") && Get(data, "title") != JStr(post.title) then
      UniqueSlug(slugify(Get(data, "title")), OwnerText(u.id), SlugsOf(posts))
    else post.slug
  }

  /** The featured image after an edit: replaced only when the request
      carries the key, and a falsy value clears it. */
  function EditedImage(post: Post, data: seq<Member>): (r: Json)
    ensures !HasKey(data, "featured_image") ==> r == TextJson(post.featuredImage)
    ensures HasKey(data, "featured_image") && Truthy(Get(data, "featured_image")) ==> r == Get(data, "featured_image")
    ensures HasKey(data, "featured_image") && !Truthy(Get(data, "featured_image")) ==> r == JNull
  {
    if HasKey(data, "featured_image") then
      (if Truthy(Get(data, "featured_image")) then Get(data, "featured_image") else JNull)
    else TextJson(post.featuredImage)
  }

  /** How one field of an edited row relates to the request and to the
      stored value: the request's value when it has the key, the stored
      value otherwise. */
  predicate MergedField(data: seq<Member>, key: string, stored: Json, now: Json) {
    if HasKey(data, key) then Lookup(data, key) == Some(now) else now == stored
  }

  /** The row `edit_post` commits once the checks have passed. Fields
      absent from the request keep their stored values: the title,
      description, keywords, category and blocks take the request's value
      when it has the key; the featured image changes only when its key is
      present; the slug changes exactly when the request carries a
      different title, and is then free; every other column is written
      back as stored. */
  function EditedRow(post: Post, data: seq<Member>, u: CurrentUser, posts: seq<Post>,
                     slugify: Json -> string, words: nat): (row: Row)
    requires post in posts
    ensures MergedField(data, "title", JStr(post.title), row.title)
    ensures MergedField(data, "description", JStr(post.description), row.description)
    ensures MergedField(data, "keywords", TextJson(post.keywords), row.keywords)
    ensures MergedField(data, "category", TextJson(post.category), row.category)
    ensures MergedField(data, "content_blocks", post.contentBlocks, row.contentBlocks)
    ensures !HasKey(data, "featured_image") ==> row.featuredImage == TextJson(post.featuredImage)
    ensures row.slug != post.slug <==> HasKey(data, "title") && Get(data, "title") != JStr(post.title)
    ensures row.slug != post.slug ==> row.slug !in SlugsOf(posts)
    ensures row.wordCount == words
    ensures var s := RowOf(post);
            row.(title := s.title, description := s.description, keywords := s.keywords,
                 category := s.category, contentBlocks := s.contentBlocks,
                 featuredImage := s.featuredImage, slug := s.slug, wordCount := s.wordCount) == s
  {
    assert post.slug in SlugsOf(posts);
    RowOf(post).(
      title := Merge(data, "title", JStr(post.title)),
      description := Merge(data, "description", JStr(post.description)),
      keywords := Merge(data, "keywords", TextJson(post.keywords)),
      category := Merge(data, "category", TextJson(post.category)),
      contentBlocks := Merge(data, "content_blocks", post.contentBlocks),
      wordCount := words,
      featuredImage := EditedImage(post, data),
      slug := EditedSlug(post, data, u, posts, slugify))
  }

  /** `edit_post(id)`, behind the login gate. In order: 401 without a
      user; 404 for an unknown id; the ownership check (500 for a subject
      that is no integer, 403 for a stranger); the request data; the blocks
      (the stored ones unless the request has the key); the word count
      (500 when it raises) and the word limit (400); then the merge, and
      the commit of the edited row against the other rows' slugs. */
  function EditPost(user: Option<CurrentUser>, id: nat, posts: seq<Post>, body: Json,
                    slugify: Json -> string): (r: Result<Post>)
    ensures user.None? ==> r == Err(NotLoggedIn)
    ensures user.Some? ==> (r == Err(NotFound) <==> Stored(posts, id).Err?)
    ensures r.Ok? ==> Stored(posts, id).Ok? && MayModify(Stored(posts, id).value, user.value)
    ensures r.Ok? ==> RequestData(body).Ok?
                      && r == Commit(EditedRow(Stored(posts, id).value, RequestData(body).value,
                                               user.value, posts, slugify, r.value.wordCount),
                                     SlugsOf(Others(posts, id)))
    ensures r.Ok? ==> CountWordsFromBlocks(r.value.contentBlocks) == Some(r.value.wordCount)
                      && ValidatePostLength(Some(user.value.membershipLevel), r.value.wordCount)
                      && Columns(r.value) && r.value.id == id
    ensures user.Some? && Stored(posts, id).Ok? && RequestData(body).Ok? ==>
              var u := user.value;
              var post := Stored(posts, id).value;
              var data := RequestData(body).value;
              var n := CountWordsFromBlocks(Merge(data, "content_blocks", post.contentBlocks));
              (r.Ok? <==> SubjectNumber(u.id).Some? && MayModify(post, u) && n.Some?
                          && ValidatePostLength(Some(u.membershipLevel), n.value)
                          && Writable(EditedRow(post, data, u, posts, slugify, n.value), SlugsOf(Others(posts, id))))
    ensures user.Some? && Stored(posts, id).Ok? && RequestData(body).Ok? ==>
              var u := user.value;
              var post := Stored(posts, id).value;
              var n := CountWordsFromBlocks(Merge(RequestData(body).value, "content_blocks", post.contentBlocks));
              SubjectNumber(u.id).Some? && MayModify(post, u) && n.Some?
              && !ValidatePostLength(Some(u.membershipLevel), n.value) ==>
                r == Err(WordLimitExceeded(GetMembershipLimits(Some(u.membershipLevel)), n.value))
  {
    var u :- LoginRequired(user);
    var post :- Stored(posts, id);
    var owned :- OwnerCheck(post, u);
    var data :- RequestData(body);
    var blocks := Merge(data, "content_blocks", post.contentBlocks);
    var words :- CountOrCrash(blocks);
    if !ValidatePostLength(Some(u.membershipLevel), words) then
      Err(WordLimitExceeded(GetMembershipLimits(Some(u.membershipLevel)), words))
    else
      Commit(EditedRow(post, data, u, posts, slugify, words), SlugsOf(Others(posts, id)))
  }

  // ---------------------------------------------------------------------
  // delete_post

  /** What deleting a post does: the store that remains, and the image
      public id handed to the image host's `destroy`, if any. */
  datatype Deletion = Deletion(remaining: seq<Post>, destroyImage: Option<string>)

  /** `delete_post(id)`, behind the login gate: 401, 404 and the ownership
      check as for editing; then the post's image is destroyed when its
      stored public id is truthy, that is, present and not empty, and the
      post's row is removed. */
  function DeletePost(user: Option<CurrentUser>, id: nat, posts: seq<Post>): (r: Result<Deletion>)
    ensures user.None? ==> r == Err(NotLoggedIn)
    ensures r.Ok? ==> Stored(posts, id).Ok? && MayModify(Stored(posts, id).value, user.value)
    ensures r.Ok? ==> forall p :: p in r.value.remaining <==> p in posts && p.id != id
    ensures r.Ok? ==> var stored := Stored(posts, id).value.featuredImagePublicId;
                      (r.value.destroyImage.Some? <==> stored.Some? && stored.value != [])
                      && (r.value.destroyImage.Some? ==> stored == r.value.destroyImage)
  {
    var u :- LoginRequired(user);
    var post :- Stored(posts, id);
    var owned :- OwnerCheck(post, u);
    var image := post.featuredImagePublicId;
    Ok(Deletion(Others(posts, id), if Truthy(TextJson(image)) then image else None))
  }

  // ---------------------------------------------------------------------
  // Listing and showing

  /** `request.args.get(name, default, type=int)`: the argument read as an
      integer, or the default when it is absent or unreadable. */
  function IntArg(raw: Option<string>, default: int): (n: int)
    ensures raw.None? ==> n == default
    ensures raw.Some? && ParseInt(raw.value).Some? ==> n == ParseInt(raw.value).value
    ensures raw.Some? && ParseInt(raw.value).None? ==> n == default
  {
    if raw.None? then default
    else ParseInt(raw.value).GetOr(default)
  }

  /** `min(request.args.get("per_page", default, type=int), cap)` */
  function PageSize(raw: Option<string>, default: int, cap: int): (n: int)
    ensures n <= cap
    ensures n == cap || n == IntArg(raw, default)
    ensures IntArg(raw, default) <= cap ==> n == IntArg(raw, default)
  {
    var requested := IntArg(raw, default);
    if requested < cap then requested else cap
  }

  /** The page size `paginate(..., error_out=False)` actually uses: a
      requested size below 1 is replaced by 20. */
  function EffectivePageSize(requested: int): (n: nat)
    ensures n >= 1
    ensures requested >= 1 ==> n == requested
    ensures requested < 1 ==> n == 20
  {
    if requested < 1 then 20 else requested
  }

  /** The page size and the posts a listing pages through (before ordering
      by creation time and paging). */
  datatype Listing = Listing(perPage: nat, posts: seq<Post>)

  /** `get_posts`: page sizes default to 12 and are capped at 20; a
      `company_id` argument that reads as a non-zero integer keeps only
      that company's posts. */
  function GetPosts(posts: seq<Post>, companyArg: Option<string>, perPageArg: Option<string>): (r: Listing)
    ensures r.perPage == EffectivePageSize(PageSize(perPageArg, 12, 20))
    ensures 1 <= r.perPage <= 20
    ensures forall p :: p in r.posts <==>
              p in posts && (companyArg.None? || ParseInt(companyArg.value).GetOr(0) == 0
                             || p.companyId == Some(ParseInt(companyArg.value).value))
  {
    var company := if companyArg.None? then None else ParseInt(companyArg.value);
    var selected := if company.Some? && company.value != 0 then Filter(posts, (p: Post) => p.companyId == Some(company.value))
                    else posts;
    Listing(EffectivePageSize(PageSize(perPageArg, 12, 20)), selected)
  }

  /** `get_my_posts`, behind the login gate: page sizes default to 10 and
      are capped at 50; a user with a truthy `is_admin` sees every post,
      anyone else the posts whose owner id equals their subject. The
      database compares the integer `user_id` column with the subject's
      text: a subject it cannot read as a 32-bit integer makes the query
      fail (500), and no subject matches nothing. */
  function GetMyPosts(user: Option<CurrentUser>, posts: seq<Post>, perPageArg: Option<string>): (r: Result<Listing>)
    ensures user.None? ==> r == Err(NotLoggedIn)
    ensures r.Ok? ==> r.value.perPage == EffectivePageSize(PageSize(perPageArg, 10, 50))
                      && 1 <= r.value.perPage <= 50
    ensures r.Ok? && user.value.isAdmin ==> r.value.posts == posts
    ensures r.Ok? && !user.value.isAdmin ==>
              forall p :: p in r.value.posts <==> p in posts && Some(p.userId) == SubjectNumber(user.value.id)
    ensures user.Some? && !user.value.isAdmin ==>
              (r.Err? <==> user.value.id.Some? && !IntegerText(user.value.id.value))
    ensures r.Err? ==> r.error == NotLoggedIn || r.error == InternalError
  {
    var u :- LoginRequired(user);
    var size := EffectivePageSize(PageSize(perPageArg, 10, 50));
    if u.isAdmin then Ok(Listing(size, posts))
    else if u.id.None? then Ok(Listing(size, []))
    else if !IntegerText(u.id.value) then Err(InternalError)
    else
      var n := ParseInt(u.id.value).value;
      Ok(Listing(size, Filter(posts, (p: Post) => p.userId == n)))
  }

  /** `get_post_detail(identifier)`: an all-digit identifier is looked up
      as a numeric id, anything else as a slug; 404 when nothing matches. */
  function GetPostDetail(identifier: string, posts: seq<Post>): (r: Result<Post>)
    ensures IsDigits(identifier) ==> (r.Ok? <==> exists p :: p in posts && p.id == DigitsValue(identifier))
    ensures !IsDigits(identifier) ==> (r.Ok? <==> exists p :: p in posts && p.slug == identifier)
    ensures r.Ok? ==> r.value in posts
    ensures r.Ok? && IsDigits(identifier) ==> r.value.id == DigitsValue(identifier)
    ensures r.Ok? && !IsDigits(identifier) ==> r.value.slug == identifier
    ensures r.Err? ==> r.error == PostNotFound
  {
    var found := if IsDigits(identifier) then Find(posts, (p: Post) => p.id == DigitsValue(identifier))
                 else Find(posts, (p: Post) => p.slug == identifier);
    match found
    case None => Err(PostNotFound)
    case Some(p) => Ok(p)
  }

  // ---------------------------------------------------------------------
  // Properties of create_post

  /** Distinct slugs, as the table's unique key on `slug` demands. */
  predicate DistinctSlugs(posts: seq<Post>) {
    forall i, j :: 0 <= i < j < |posts| ==> posts[i].slug != posts[j].slug
  }

  /** Distinct ids, as the table's primary key demands. */
  predicate DistinctIds(posts: seq<Post>) {
    forall i, j :: 0 <= i < j < |posts| ==> posts[i].id != posts[j].id
  }

  lemma NoneMissing(fields: seq<string>, data: seq<Member>)
    requires forall f :: f in fields ==> Truthy(Get(data, f))
    ensures Missing(fields, data) == []
  {
    if Missing(fields, data) != [] {
      assert Missing(fields, data)[0] in Missing(fields, data);
    }
  }

  /** End to end: an admin whose token is valid passes both gates, and is
      still refused with 403 once the weekly quota of their level is used
      up. */
  lemma AdminsMeetQuotas(header: string, decode: string -> Decoded, body: Json, week: nat,
                         weekPosts: nat, posts: seq<Post>, slugify: Json -> string, newId: nat)
    requires JwtRequiredLocal(header, decode).Ok?
    requires IsAdminRole(JwtRequiredLocal(header, decode).value)
    requires RequestData(body).Ok?
    requires forall f :: f in RequiredFields ==> Truthy(Get(RequestData(body).value, f))
    requires var u := JwtRequiredLocal(header, decode).value;
             (u.id.None? || IntegerText(u.id.value))
             && !CanUserPost(Some(CleanLevel(u.membershipLevel)), weekPosts)
    ensures CreatePostRoute(header, decode, body, week, weekPosts, posts, slugify, newId) == Err(WeeklyLimitReached)
  {
    var u := JwtRequiredLocal(header, decode).value;
    assert MembershipRequired(CreateAllowed, Some(u)) == Ok(u);
    NoneMissing(RequiredFields, RequestData(body).value);
  }

  /** `category` is not among the required fields, yet it is read with
      `data["category"]`: a request that passes every check but lacks the
      key fails with 500 instead of storing a post without a category. */
  lemma MissingCategoryFails(user: CurrentUser, body: Json, week: nat, weekPosts: nat,
                             posts: seq<Post>, slugify: Json -> string, newId: nat)
    requires RequestData(body).Ok?
    requires forall f :: f in RequiredFields ==> Truthy(Get(RequestData(body).value, f))
    requires !HasKey(RequestData(body).value, "category")
    requires user.id.Some? && IntegerText(user.id.value)
    requires CanUserPost(Some(CleanLevel(user.membershipLevel)), weekPosts)
    requires var n := CountWordsFromBlocks(Get(RequestData(body).value, "content_blocks"));
             n.Some? && ValidatePostLength(Some(CleanLevel(user.membershipLevel)), n.value)
    ensures CreatePost(user, body, week, weekPosts, posts, slugify, newId) == Err(InternalError)
  {
    var data := RequestData(body).value;
    NoneMissing(RequiredFields, data);
    assert HasKey(data, "content_blocks") by {
      assert "content_blocks" in RequiredFields;
    }
  }

  /** A created post keeps the stored slugs distinct. */
  lemma CreateKeepsSlugsDistinct(user: CurrentUser, body: Json, week: nat, weekPosts: nat,
                                 posts: seq<Post>, slugify: Json -> string, newId: nat)
    requires DistinctSlugs(posts)
    requires CreatePost(user, body, week, weekPosts, posts, slugify, newId).Ok?
    ensures DistinctSlugs(posts + [CreatePost(user, body, week, weekPosts, posts, slugify, newId).value])
  {
    AppendKeepsSlugsDistinct(posts, CreatePost(user, body, week, weekPosts, posts, slugify, newId).value);
  }

  /** A created post stores what the request sent: text within its
      column's length is stored as sent, a 32-bit company id as that
      number, an optional field the request leaves out as NULL, and the
      user name is the token's. */
  lemma CreatedPostKeepsRequest(user: CurrentUser, body: Json, week: nat, weekPosts: nat,
                                posts: seq<Post>, slugify: Json -> string, newId: nat)
    requires CreatePost(user, body, week, weekPosts, posts, slugify, newId).Ok?
    ensures var p := CreatePost(user, body, week, weekPosts, posts, slugify, newId).value;
            var t := Get(RequestData(body).value, "title");
            var d := Get(RequestData(body).value, "description");
            (t.JStr? && |t.s| <= 255 ==> p.title == t.s)
            && (d.JStr? && |d.s| <= 500 ==> p.description == d.s)
    ensures var p := CreatePost(user, body, week, weekPosts, posts, slugify, newId).value;
            var k := Get(RequestData(body).value, "keywords");
            var c := Get(RequestData(body).value, "category");
            (k.JStr? && |k.s| <= 255 ==> p.keywords == Some(k.s))
            && (k.JNull? ==> p.keywords == None)
            && (c.JStr? && |c.s| <= 100 ==> p.category == Some(c.s))
            && (c.JNull? ==> p.category == None)
    ensures var p := CreatePost(user, body, week, weekPosts, posts, slugify, newId).value;
            var co := Get(RequestData(body).value, "company_id");
            var im := Get(RequestData(body).value, "featured_image");
            var pid := Get(RequestData(body).value, "featured_image_public_id");
            (co.JNum? && InInt32(co.n) ==> p.companyId == Some(co.n))
            && (co.JNull? ==> p.companyId == None)
            && (im.JStr? ==> p.featuredImage == Some(im.s))
            && (im.JNull? ==> p.featuredImage == None)
            && (pid.JStr? ==> p.featuredImagePublicId == Some(pid.s))
            && (pid.JNull? ==> p.featuredImagePublicId == None)
    ensures var p := CreatePost(user, body, week, weekPosts, posts, slugify, newId).value;
            user.username.Some? && (|user.username.value| <= 150 ==> p.userName == user.username.value)
  {
    var data := RequestData(body).value;
    var words := CountWordsFromBlocks(GetOrDefault(data, "content_blocks", JList([])));
    var slug := UniqueSlug(slugify(Get(data, "title")), OwnerText(user.id), SlugsOf(posts));
    var row := NewRow(user, data, Lookup(data, "category").value, words.value, week, slug, newId);
    assert CreatePost(user, body, week, weekPosts, posts, slugify, newId) == Commit(row, SlugsOf(posts));
    CommitKeepsText(row, SlugsOf(posts));
  }

  /** What a committed row stores for the values a request can send:
      text within its column's length as it is, a 32-bit number in an
      integer column as that number, and null as NULL. */
  lemma CommitKeepsText(row: Row, taken: set<string>)
    requires Commit(row, taken).Ok?
    ensures var p := Commit(row, taken).value;
            (row.title.JStr? && |row.title.s| <= 255 ==> p.title == row.title.s)
            && (row.description.JStr? && |row.description.s| <= 500 ==> p.description == row.description.s)
            && (row.userName.JStr? && |row.userName.s| <= 150 ==> p.userName == row.userName.s)
    ensures var p := Commit(row, taken).value;
            (row.keywords.JStr? && |row.keywords.s| <= 255 ==> p.keywords == Some(row.keywords.s))
            && (row.keywords.JNull? ==> p.keywords == None)
            && (row.category.JStr? && |row.category.s| <= 100 ==> p.category == Some(row.category.s))
            && (row.category.JNull? ==> p.category == None)
    ensures var p := Commit(row, taken).value;
            (row.companyId.JNum? && InInt32(row.companyId.n) ==> p.companyId == Some(row.companyId.n))
            && (row.companyId.JNull? ==> p.companyId == None)
            && (row.featuredImage.JStr? ==> p.featuredImage == Some(row.featuredImage.s))
            && (row.featuredImage.JNull? ==> p.featuredImage == None)
            && (row.featuredImagePublicId.JStr? ==> p.featuredImagePublicId == Some(row.featuredImagePublicId.s))
            && (row.featuredImagePublicId.JNull? ==> p.featuredImagePublicId == None)
  {
  }

  lemma AppendKeepsSlugsDistinct(posts: seq<Post>, q: Post)
    requires DistinctSlugs(posts) && q.slug !in SlugsOf(posts)
    ensures DistinctSlugs(posts + [q])
  {
    forall i | 0 <= i < |posts|
      ensures posts[i].slug != q.slug
    {
      assert posts[i].slug in SlugsOf(posts);
    }
  }

  // ---------------------------------------------------------------------
  // Properties of edit_post and delete_post

  /** Edit and delete share one access rule. A user whose subject reads as
      an integer reaches the post exactly when they own it or are an
      admin; a stranger gets 403 from both routes. */
  lemma StrangersRefused(user: CurrentUser, id: nat, posts: seq<Post>, body: Json,
                         slugify: Json -> string)
    requires Stored(posts, id).Ok?
    requires SubjectNumber(user.id).Some?
    requires !MayModify(Stored(posts, id).value, user)
    ensures EditPost(Some(user), id, posts, body, slugify) == Err(NotAuthorized)
    ensures DeletePost(Some(user), id, posts) == Err(NotAuthorized)
  {
  }

  /** Delete succeeds exactly for an existing post and a user who may
      modify it, and the post is then gone. */
  lemma DeleteAccess(user: CurrentUser, id: nat, posts: seq<Post>)
    ensures DeletePost(Some(user), id, posts).Ok? <==>
            Stored(posts, id).Ok? && SubjectNumber(user.id).Some? && MayModify(Stored(posts, id).value, user)
    ensures DeletePost(Some(user), id, posts).Ok? ==>
              Stored(DeletePost(Some(user), id, posts).value.remaining, id) == Err(NotFound)
  {
  }

  /** `int(user["id"])` is evaluated before the role is consulted: an
      admin whose subject is not an integer cannot edit or delete any post
      (500). */
  lemma TextSubjectFails(user: CurrentUser, id: nat, posts: seq<Post>, body: Json,
                         slugify: Json -> string)
    requires Stored(posts, id).Ok?
    requires SubjectNumber(user.id).None?
    ensures EditPost(Some(user), id, posts, body, slugify) == Err(InternalError)
    ensures DeletePost(Some(user), id, posts) == Err(InternalError)
  {
  }

  /** The store with the post stored under `id` replaced by `q`. */
  function Replace(posts: seq<Post>, id: nat, q: Post): (r: seq<Post>)
    ensures |r| == |posts|
    ensures forall i :: 0 <= i < |posts| ==> r[i] == (if posts[i].id == id then q else posts[i])
  {
    seq(|posts|, i requires 0 <= i < |posts| => if posts[i].id == id then q else posts[i])
  }

  /** An edited post stores what the request sent and keeps the rest:
      text the request carries within its column's length is stored as
      sent, a field it leaves out keeps its stored value, and the company,
      the image's public id, the owner, the user name and the week are
      never changed by an edit. */
  lemma EditedPostKeepsRest(user: Option<CurrentUser>, id: nat, posts: seq<Post>, body: Json,
                            slugify: Json -> string)
    requires EditPost(user, id, posts, body, slugify).Ok?
    requires Columns(Stored(posts, id).value)
    ensures var p := EditPost(user, id, posts, body, slugify).value;
            var q := Stored(posts, id).value;
            var data := RequestData(body).value;
            (!HasKey(data, "title") ==> p.title == q.title)
            && (!HasKey(data, "description") ==> p.description == q.description)
            && (!HasKey(data, "keywords") ==> p.keywords == q.keywords)
            && (!HasKey(data, "category") ==> p.category == q.category)
            && (!HasKey(data, "featured_image") ==> p.featuredImage == q.featuredImage)
    ensures var p := EditPost(user, id, posts, body, slugify).value;
            var t := Get(RequestData(body).value, "title");
            var d := Get(RequestData(body).value, "description");
            (HasKey(RequestData(body).value, "title") && t.JStr? && |t.s| <= 255 ==> p.title == t.s)
            && (HasKey(RequestData(body).value, "description") && d.JStr? && |d.s| <= 500 ==> p.description == d.s)
    ensures var p := EditPost(user, id, posts, body, slugify).value;
            var q := Stored(posts, id).value;
            p.companyId == q.companyId && p.featuredImagePublicId == q.featuredImagePublicId
            && p.userId == q.userId && p.userName == q.userName && p.weekNumber == q.weekNumber
  {
    var u := user.value;
    var q := Stored(posts, id).value;
    var data := RequestData(body).value;
    var words := CountWordsFromBlocks(Merge(data, "content_blocks", q.contentBlocks));
    var row := EditedRow(q, data, u, posts, slugify, words.value);
    assert EditPost(user, id, posts, body, slugify) == Commit(row, SlugsOf(Others(posts, id)));
    CommitRoundTrip(q, {});
  }

  /** Writing an edited post back keeps the stored slugs distinct: the
      commit refuses a slug another row holds. */
  lemma EditKeepsSlugsDistinct(user: Option<CurrentUser>, id: nat, posts: seq<Post>, body: Json,
                               slugify: Json -> string)
    requires DistinctSlugs(posts) && DistinctIds(posts)
    requires EditPost(user, id, posts, body, slugify).Ok?
    ensures DistinctSlugs(Replace(posts, id, EditPost(user, id, posts, body, slugify).value))
  {
    ReplaceKeepsSlugsDistinct(posts, id, EditPost(user, id, posts, body, slugify).value);
  }

  lemma ReplaceKeepsSlugsDistinct(posts: seq<Post>, id: nat, q: Post)
    requires DistinctSlugs(posts) && DistinctIds(posts)
    requires q.slug !in SlugsOf(Others(posts, id))
    ensures DistinctSlugs(Replace(posts, id, q))
  {
    var r := Replace(posts, id, q);
    forall i, j | 0 <= i < j < |posts|
      ensures r[i].slug != r[j].slug
    {
      if posts[i].id == id {
        assert posts[j].id != id;
        assert posts[j].slug in SlugsOf(Others(posts, id));
      } else if posts[j].id == id {
        assert posts[i].slug in SlugsOf(Others(posts, id));
      }
    }
  }

  // ---------------------------------------------------------------------
  // Properties of the listings and of get_post_detail

  /** A page size given as a number is honoured up to the cap; without
      one the default applies. */
  lemma PageSizeOfNumber(n: nat, default: int, cap: int)
    ensures PageSize(Some(Decimal(n)), default, cap) == (if n < cap then n else cap)
    ensures default <= cap ==> PageSize(None, default, cap) == default
  {
    ParseIntOfDecimal(n);
  }

  /** The two listings' page sizes: 12 by default and at most 20 for the
      public list, 10 by default and at most 50 for one's own posts; a
      size below 1 is paged as 20 by both. */
  lemma ListingPageSizes(posts: seq<Post>, user: CurrentUser, companyArg: Option<string>, arg: Option<string>)
    ensures GetPosts(posts, companyArg, arg).perPage <= 20
    ensures arg.None? ==> GetPosts(posts, companyArg, arg).perPage == 12
    ensures GetMyPosts(Some(user), posts, arg).Ok? ==> GetMyPosts(Some(user), posts, arg).value.perPage <= 50
    ensures arg.None? && GetMyPosts(Some(user), posts, arg).Ok? ==> GetMyPosts(Some(user), posts, arg).value.perPage == 10
    ensures arg == Some("-5") ==> GetPosts(posts, companyArg, arg).perPage == 20
    ensures arg == Some("-5") && GetMyPosts(Some(user), posts, arg).Ok? ==> GetMyPosts(Some(user), posts, arg).value.perPage == 20
  {
    if arg == Some("-5") {
      assert ParseInt("-5") == Some(-5) by {
        assert "-5"[1..] == "5";
        assert DigitsValue("5") == 5;
      }
    }
  }

  /** A company id given as a positive number keeps exactly that
      company's posts; without one, every post is listed. */
  lemma CompanyFilter(posts: seq<Post>, c: nat, arg: Option<string>)
    ensures c > 0 ==> forall p :: p in GetPosts(posts, Some(Decimal(c)), arg).posts <==>
                                  p in posts && p.companyId == Some(c)
    ensures GetPosts(posts, None, arg).posts == posts
    ensures GetPosts(posts, Some(Decimal(0)), arg).posts == posts
  {
    ParseIntOfDecimal(c);
    ParseIntOfDecimal(0);
  }

  /** A non-admin whose subject is the 32-bit number `n` sees exactly the
      posts owned by `n`; an admin sees every post. */
  lemma MyPostsOfOwner(user: CurrentUser, n: nat, posts: seq<Post>, arg: Option<string>)
    ensures user.isAdmin ==> GetMyPosts(Some(user), posts, arg) == Ok(Listing(EffectivePageSize(PageSize(arg, 10, 50)), posts))
    ensures !user.isAdmin && user.id == Some(Decimal(n)) && n <= 0x7FFF_FFFF ==>
              GetMyPosts(Some(user), posts, arg).Ok?
              && forall p :: p in GetMyPosts(Some(user), posts, arg).value.posts <==> p in posts && p.userId == n
  {
    ParseIntOfDecimal(n);
  }

  /** Every stored post is reachable through its id written in decimal. */
  lemma DetailById(posts: seq<Post>, p: Post)
    requires DistinctIds(posts)
    requires p in posts
    ensures GetPostDetail(Decimal(p.id), posts) == Ok(p)
  {
    DigitsValueOfDecimal(p.id);
    var q := GetPostDetail(Decimal(p.id), posts).value;
    var i :| 0 <= i < |posts| && posts[i] == p;
    var j :| 0 <= j < |posts| && posts[j] == q;
    assert i == j;
  }

  /** A stored post whose slug is not all digits is reachable through its
      slug. */
  lemma DetailBySlug(posts: seq<Post>, p: Post)
    requires DistinctSlugs(posts)
    requires p in posts && !IsDigits(p.slug)
    ensures GetPostDetail(p.slug, posts) == Ok(p)
  {
    var q := GetPostDetail(p.slug, posts).value;
    var i :| 0 <= i < |posts| && posts[i] == p;
    var j :| 0 <= j < |posts| && posts[j] == q;
    assert i == j;
  }

  /** An all-digit slug (a title such as "2024" slugifies to one) is read
      as an id: unless some post happens to have that id, the post that
      owns the slug answers 404 to its own address. */
  lemma DigitSlugShadowed(posts: seq<Post>, p: Post)
    requires p in posts && IsDigits(p.slug)
    requires forall q :: q in posts ==> q.id != DigitsValue(p.slug)
    ensures GetPostDetail(p.slug, posts) == Err(PostNotFound)
  {
  }

  // ---------------------------------------------------------------------
  // What the database does with the values it is given

  /** A company id sent as the text of a 32-bit number is stored as that
      number, so the post is listed for `company_id=c`. */
  lemma CompanyTextListed(row: Row, taken: set<string>, c: nat, arg: Option<string>)
    requires 0 < c <= 0x7FFF_FFFF
    requires row.companyId == JStr(Decimal(c))
    requires Commit(row, taken).Ok?
    ensures Commit(row, taken).value.companyId == Some(c)
    ensures Commit(row, taken).value in GetPosts([Commit(row, taken).value], Some(Decimal(c)), arg).posts
  {
    ParseIntOfDecimal(c);
  }

  /** A public id sent as the number 0 or as false is stored as the text
      "0" or "false", which is truthy: deleting the post hands it to the
      image host's `destroy`. */
  lemma FalsyPublicIdDestroyed(row: Row, taken: set<string>, user: CurrentUser)
    requires row.featuredImagePublicId == JNum(0) || row.featuredImagePublicId == JBool(false)
    requires Commit(row, taken).Ok?
    requires SubjectNumber(user.id).Some? && MayModify(Commit(row, taken).value, user)
    ensures var q := Commit(row, taken).value;
            var text := if row.featuredImagePublicId == JNum(0) then "0" else "false";
            q.featuredImagePublicId == Some(text)
            && DeletePost(Some(user), q.id, [q]) == Ok(Deletion([], Some(text)))
  {
    var q := Commit(row, taken).value;
    assert IntText(0) == "0";
    assert Others([q], q.id) == [] by {
      assert [q][1..] == [];
    }
  }

  /** The integer `user_id` column cannot be compared with a subject
      beyond 32 bits, although `int()` reads it: the weekly count of
      `create_post` and the listing of one's own posts fail (500). */
  lemma WideSubjectFails(user: CurrentUser, n: nat, body: Json, week: nat, weekPosts: nat,
                         posts: seq<Post>, slugify: Json -> string, newId: nat, arg: Option<string>)
    requires user.id == Some(Decimal(n)) && n > 0x7FFF_FFFF
    requires RequestData(body).Ok? && Missing(RequiredFields, RequestData(body).value) == []
    ensures SubjectNumber(user.id) == Some(n)
    ensures CreatePost(user, body, week, weekPosts, posts, slugify, newId) == Err(InternalError)
    ensures !user.isAdmin ==> GetMyPosts(Some(user), posts, arg) == Err(InternalError)
  {
    ParseIntOfDecimal(n);
  }

  /** A non-admin whose token claims the level "gold\t" is refused at the
      creation gate with 403: `jwt_required_local` keeps the tab, and the
      cleaned level is no tier name. */
  lemma TabbedGoldRefusedAtCreation(header: string, decode: string -> Decoded, body: Json, week: nat,
                                    weekPosts: nat, posts: seq<Post>, slugify: Json -> string, newId: nat)
    requires HasBearerPrefix(header) && decode(TokenOf(header)).Valid?
    requires decode(TokenOf(header)).payload.membershipLevel == Some("gold\t")
    requires decode(TokenOf(header)).payload.role != Some("admin")
    ensures CreatePostRoute(header, decode, body, week, weekPosts, posts, slugify, newId)
            == Err(LevelNotAllowed("gold\t"))
    ensures Code(LevelNotAllowed("gold\t")) == 403
  {
    var u := BuildCurrentUser(decode(TokenOf(header)).payload);
    TokenLevelKeepsTab();
    TabbedGoldClean();
    forall t: Tier ensures u.membershipLevel != TierName(t) {
      assert |TierName(t)| != 5;
    }
    UnknownLevelRefusedAtGate(u);
  }
}

=== FILE: slugs.dfy ===
/** `generate_unique_slug`: the base slug if it is free, otherwise the
    first free `base-i-owner` for i = 1, 2, ... The set of slugs already
    stored is an input; `slugify` itself stays outside the model (the
    caller passes its result in as `base`). */
module Slugs {
  import opened PyText

  /** `f"{base_slug}-{i}-{user_id}"` */
  function Candidate(base: string, n: nat, owner: string): string {
    base + "-" + Decimal(n) + "-" + owner
  }

  /** A candidate starts with the base and a dash, ends with a dash and
      the owner, and holds the counter's digits in between. */
  lemma CandidateShape(base: string, n: nat, owner: string)
    ensures var c := Candidate(base, n, owner);
            && |c| == |base| + |Decimal(n)| + |owner| + 2
            && c[..|base|] == base && c[|base|] == '-'
            && c[|base| + 1..|base| + 1 + |Decimal(n)|] == Decimal(n)
            && c[|c| - |owner|..] == owner && c[|c| - |owner| - 1] == '-'
  {
    var c := Candidate(base, n, owner);
    var d := Decimal(n);
    assert c == base + ("-" + d + "-" + owner);
    assert c == (base + "-" + d) + ("-" + owner);
    assert c == (base + "-") + (d + "-" + owner);
  }

  /** The position of the first '-' (the length when there is none). */
  function FirstDash(s: string): (k: nat)
    ensures k <= |s|
    ensures '-' !in s[..k]
  {
    if s == [] || s[0] == '-' then 0
    else
      var k := 1 + FirstDash(s[1..]);
      assert s[..k] == [s[0]] + s[1..][..k - 1];
      k
  }

  lemma {:induction false} FirstDashAfter(d: string, o: string)
    requires '-' !in d
    ensures FirstDash(d + "-" + o) == |d|
    decreases |d|
  {
    if d != [] {
      assert (d + "-" + o)[1..] == d[1..] + "-" + o;
      assert '-' !in d[1..];
      FirstDashAfter(d[1..], o);
    }
  }

  /** Two texts of the form `d + "-" + o` whose leading parts hold no '-'
      split the same way only if both parts agree. */
  lemma SplitAtFirstDash(d1: string, o1: string, d2: string, o2: string)
    requires '-' !in d1 && '-' !in d2
    requires d1 + "-" + o1 == d2 + "-" + o2
    ensures d1 == d2 && o1 == o2
  {
    var c := d1 + "-" + o1;
    FirstDashAfter(d1, o1);
    FirstDashAfter(d2, o2);
    assert d1 == c[..|d1|] == d2;
    assert o1 == c[|d1| + 1..] == o2;
  }

  lemma DecimalHasNoDash(n: nat)
    ensures '-' !in Decimal(n)
  {
  }

  /** A candidate determines both its counter and its owner: distinct
      counters give distinct slugs, and so do distinct owners. */
  lemma CandidateInjective(base: string, m: nat, u1: string, n: nat, u2: string)
    requires Candidate(base, m, u1) == Candidate(base, n, u2)
    ensures m == n && u1 == u2
  {
    var c := Candidate(base, m, u1);
    assert c == (base + "-") + (Decimal(m) + "-" + u1);
    assert c == (base + "-") + (Decimal(n) + "-" + u2);
    assert c[|base| + 1..] == Decimal(m) + "-" + u1;
    assert c[|base| + 1..] == Decimal(n) + "-" + u2;
    DecimalHasNoDash(m);
    DecimalHasNoDash(n);
    SplitAtFirstDash(Decimal(m), u1, Decimal(n), u2);
    DecimalInjective(m, n);
  }

  /** The candidates with a counter below `n` (the loop starts at 1, so
      the one for 0 is never probed; counting it keeps the measure simple). */
  ghost function Tried(base: string, owner: string, n: nat): set<string> {
    set j: nat | j < n :: Candidate(base, j, owner)
  }

  /** Trying one more candidate never grows the part of `existing` not
      yet tried, and shrinks it when that candidate was taken. */
  lemma TriedShrinks(base: string, owner: string, existing: set<string>, n: nat)
    ensures |existing - Tried(base, owner, n + 1)| <= |existing - Tried(base, owner, n)|
    ensures Candidate(base, n, owner) in existing ==>
              |existing - Tried(base, owner, n + 1)| < |existing - Tried(base, owner, n)|
  {
    var c := Candidate(base, n, owner);
    forall x ensures x in Tried(base, owner, n + 1) <==> x in Tried(base, owner, n) + {c} {
      if x in Tried(base, owner, n + 1) {
        var j: nat :| j < n + 1 && Candidate(base, j, owner) == x;
        if j < n {
          assert x in Tried(base, owner, n);
        }
      }
      if x == c {
        assert Candidate(base, n, owner) in Tried(base, owner, n + 1);
      }
    }
    assert Tried(base, owner, n + 1) == Tried(base, owner, n) + {c};
    assert c !in Tried(base, owner, n) by {
      if c in Tried(base, owner, n) {
        var j: nat :| j < n && Candidate(base, j, owner) == c;
        CandidateInjective(base, j, owner, n, owner);
      }
    }
    assert existing - Tried(base, owner, n + 1) == (existing - Tried(base, owner, n)) - {c};
    if c in existing {
      assert c in existing - Tried(base, owner, n);
    }
  }

  /** The first counter from `n` on whose candidate is free. The search
      ends because `existing` is finite and every taken candidate is a
      different element of it. */
  function FirstFree(base: string, owner: string, existing: set<string>, n: nat): (k: nat)
    ensures k >= n
    ensures Candidate(base, k, owner) !in existing
    ensures forall j :: n <= j < k ==> Candidate(base, j, owner) in existing
    decreases |existing - Tried(base, owner, n)|
  {
    if Candidate(base, n, owner) !in existing then n
    else
      TriedShrinks(base, owner, existing, n);
      FirstFree(base, owner, existing, n + 1)
  }

  /** The slug `generate_unique_slug` settles on: never one already
      stored; the base when it is free; otherwise `base-k-owner` for the
      smallest k >= 1 whose candidate is free. */
  function UniqueSlug(base: string, owner: string, existing: set<string>): (slug: string)
    ensures slug !in existing
    ensures base !in existing ==> slug == base
    ensures base in existing ==>
              exists k: nat :: 1 <= k && slug == Candidate(base, k, owner)
                               && forall j :: 1 <= j < k ==> Candidate(base, j, owner) in existing
  {
    if base !in existing then base
    else Candidate(base, FirstFree(base, owner, existing, 1), owner)
  }

  /** `generate_unique_slug` as the source writes it: a loop that probes
      the store with the base and then with each candidate in turn. It
      settles on the same slug as UniqueSlug. */
  method GenerateUniqueSlug(base: string, owner: string, existing: set<string>) returns (slug: string)
    ensures slug !in existing
    ensures base !in existing ==> slug == base
    ensures base in existing ==>
              exists k: nat :: 1 <= k && slug == Candidate(base, k, owner)
                               && forall j :: 1 <= j < k ==> Candidate(base, j, owner) in existing
    ensures slug == UniqueSlug(base, owner, existing)
  {
    slug := base;
    var i: nat := 1;
    while slug in existing
      invariant i >= 1
      invariant i == 1 ==> slug == base
      invariant i > 1 ==> base in existing && slug == Candidate(base, i - 1, owner)
      invariant forall j :: 1 <= j < i - 1 ==> Candidate(base, j, owner) in existing
      decreases |existing - Tried(base, owner, i)|, if slug in existing then 1 else 0
    {
      TriedShrinks(base, owner, existing, i);
      slug := Candidate(base, i, owner);
      i := i + 1;
    }
  }

  /** Two users who give their posts the same title never compete for the
      same suffixed slug. */
  lemma DistinctOwnersDistinctCandidates(base: string, m: nat, u1: string, n: nat, u2: string)
    requires u1 != u2
    ensures Candidate(base, m, u1) != Candidate(base, n, u2)
  {
    if Candidate(base, m, u1) == Candidate(base, n, u2) {
      CandidateInjective(base, m, u1, n, u2);
    }
  }
}

=== FILE: text.dfy ===
/** The handful of Python `str` operations the membership and route logic
    relies on: whitespace classification, `lower`, `replace(" ", "")`,
    `strip`, `split()`, `isdigit`, decimal rendering and `int()`. */
module PyText {
  import opened Values

  /** `c.isspace()`: the characters `str.split()` and `str.strip()` treat
      as whitespace (ASCII controls 9-13 and 28-31, the space, and the
      Unicode space separators). */
  predicate IsSpace(c: char) {
    var n := c as int;
    || 0x09 <= n <= 0x0D
    || 0x1C <= n <= 0x20
    || n == 0x85 || n == 0xA0 || n == 0x1680
    || 0x2000 <= n <= 0x200A
    || n == 0x2028 || n == 0x2029 || n == 0x202F || n == 0x205F || n == 0x3000
  }

  predicate NoSpace(s: string) {
    forall i :: 0 <= i < |s| ==> !IsSpace(s[i])
  }

  predicate AllSpace(s: string) {
    forall i :: 0 <= i < |s| ==> IsSpace(s[i])
  }

  // ---------------------------------------------------------------------
  // Case and space normalisation

  function LowerChar(c: char): char {
    if 'A' <= c <= 'Z' then (c as int + 32) as char else c
  }

  /** `s.lower()`, restricted to the ASCII letters. */
  function Lower(s: string): (r: string)
    ensures |r| == |s|
    ensures forall i :: 0 <= i < |s| ==> r[i] == LowerChar(s[i])
  {
    seq(|s|, i requires 0 <= i < |s| => LowerChar(s[i]))
  }

  /** `s.replace(" ", "")`: every U+0020 removed, every other character
      kept in order. Tabs and other whitespace stay. */
  function RemoveSpaces(s: string): (r: string)
    ensures ' ' !in r
    ensures |r| <= |s|
  {
    if s == [] then []
    else (if s[0] == ' ' then [] else [s[0]]) + RemoveSpaces(s[1..])
  }

  lemma {:induction false} RemoveSpacesKeepsSpaceFree(s: string)
    requires ' ' !in s
    ensures RemoveSpaces(s) == s
    decreases |s|
  {
    if s != [] {
      assert ' ' !in s[1..];
      RemoveSpacesKeepsSpaceFree(s[1..]);
      assert s == [s[0]] + s[1..];
    }
  }

  /** `replace` works piecewise: removing spaces from a concatenation is
      concatenating the pieces with their spaces removed. */
  lemma {:induction false} RemoveSpacesAppend(a: string, b: string)
    ensures RemoveSpaces(a + b) == RemoveSpaces(a) + RemoveSpaces(b)
    decreases |a|
  {
    if a != [] {
      assert (a + b)[1..] == a[1..] + b;
      RemoveSpacesAppend(a[1..], b);
    } else {
      assert a + b == b;
    }
  }

  /** `pat in s`: some window of `s` equals `pat`. */
  predicate Occurs(s: string, pat: string)
    decreases |s|
  {
    |s| >= |pat| && (s[..|pat|] == pat || (s != [] && Occurs(s[1..], pat)))
  }

  /** `s.replace(pat, repl)`: every occurrence of `pat`, scanning left to
      right without overlap, replaced by `repl`. Text without an occurrence
      is unchanged. */
  function ReplaceAll(s: string, pat: string, repl: string): (r: string)
    requires pat != []
    ensures !Occurs(s, pat) ==> r == s
    ensures |s| >= |pat| && s[..|pat|] == pat && !Occurs(s[|pat|..], pat) ==> r == repl + s[|pat|..]
    ensures |s| >= |pat| && s[..|pat|] == pat ==> |r| >= |repl| && r[..|repl|] == repl
    ensures |repl| <= |pat| ==> |r| <= |s|
    decreases |s|
  {
    if |s| < |pat| then s
    else if s[..|pat|] == pat then repl + ReplaceAll(s[|pat|..], pat, repl)
    else [s[0]] + ReplaceAll(s[1..], pat, repl)
  }

  /** A pattern holding `c` occurs only in a text holding `c`. */
  lemma {:induction false} OccursContains(s: string, pat: string, c: char)
    requires c in pat && Occurs(s, pat)
    ensures c in s
    decreases |s|
  {
    if s[..|pat|] == pat {
      assert c in s[..|pat|];
    } else {
      OccursContains(s[1..], pat, c);
    }
  }

  /** A text made of the pattern and a rest without it: only the leading
      copy is replaced. */
  lemma ReplaceLeading(pat: string, t: string, repl: string)
    requires pat != [] && !Occurs(t, pat)
    ensures ReplaceAll(pat + t, pat, repl) == repl + t
  {
    assert (pat + t)[..|pat|] == pat;
    assert (pat + t)[|pat|..] == t;
  }

  lemma LowerIdempotent(s: string)
    ensures Lower(Lower(s)) == Lower(s)
  {
  }

  /** Text without capital letters is its own `lower`. */
  lemma LowerNoCapitals(s: string)
    requires forall i :: 0 <= i < |s| ==> !('A' <= s[i] <= 'Z')
    ensures Lower(s) == s
  {
  }

  lemma LowerKeepsSpaceFree(s: string)
    requires ' ' !in s
    ensures ' ' !in Lower(s)
  {
    forall i | 0 <= i < |s|
      ensures Lower(s)[i] != ' '
    {
      assert s[i] != ' ';
    }
  }

  // ---------------------------------------------------------------------
  // strip and split

  /** The length of the leading run of whitespace. */
  function SpaceRun(s: string): (n: nat)
    ensures n <= |s|
    ensures AllSpace(s[..n])
    ensures n == |s| || !IsSpace(s[n])
  {
    if s == [] || !IsSpace(s[0]) then 0
    else
      var n := 1 + SpaceRun(s[1..]);
      assert s[..n] == [s[0]] + s[1..][..n - 1];
      n
  }

  /** `s.lstrip()`: the text after the leading whitespace. */
  function LStrip(s: string): (r: string)
    ensures |r| <= |s| && r == s[|s| - |r|..]
    ensures AllSpace(s[..|s| - |r|])
    ensures r == [] || !IsSpace(r[0])
  {
    s[SpaceRun(s)..]
  }

  /** `s.rstrip()` */
  function RStrip(s: string): (r: string)
    ensures |r| <= |s| && r == s[..|r|]
    ensures AllSpace(s[|r|..])
    ensures r == [] || !IsSpace(r[|r| - 1])
  {
    if s == [] || !IsSpace(s[|s| - 1]) then s
    else
      var r := RStrip(s[..|s| - 1]);
      assert s[|r|..] == s[..|s| - 1][|r|..] + [s[|s| - 1]];
      r
  }

  /** `s.strip()`: what follows the leading whitespace, up to where only
      whitespace remains; it neither starts nor ends with whitespace. */
  function Strip(s: string): (r: string)
    ensures SpaceRun(s) + |r| <= |s|
    ensures r == s[SpaceRun(s)..SpaceRun(s) + |r|]
    ensures AllSpace(s[SpaceRun(s) + |r|..])
    ensures r == [] || (!IsSpace(r[0]) && !IsSpace(r[|r| - 1]))
  {
    var i := SpaceRun(s);
    var l := s[i..];
    var r := RStrip(l);
    assert r == s[i..i + |r|];
    assert s[i + |r|..] == l[|r|..];
    r
  }

  lemma {:induction false} SpaceRunPrefix(p: string, s: string)
    requires AllSpace(p)
    requires s == [] || !IsSpace(s[0])
    ensures SpaceRun(p + s) == |p|
    decreases |p|
  {
    if p == [] {
      assert p + s == s;
    } else {
      assert (p + s)[1..] == p[1..] + s;
      SpaceRunPrefix(p[1..], s);
    }
  }

  lemma LStripSpacePrefix(p: string, s: string)
    requires AllSpace(p)
    requires s == [] || !IsSpace(s[0])
    ensures LStrip(p + s) == s
  {
    SpaceRunPrefix(p, s);
    assert (p + s)[|p|..] == s;
  }

  lemma {:induction false} RStripSpaceSuffix(s: string, q: string)
    requires AllSpace(q)
    requires s == [] || !IsSpace(s[|s| - 1])
    ensures RStrip(s + q) == s
    decreases |q|
  {
    if q == [] {
      assert s + q == s;
    } else {
      var q' := q[..|q| - 1];
      assert (s + q)[..|s + q| - 1] == s + q';
      RStripSpaceSuffix(s, q');
    }
  }

  /** `strip` removes exactly the whitespace around a trimmed core. */
  lemma StripSurrounded(p: string, s: string, q: string)
    requires AllSpace(p) && AllSpace(q)
    requires s == [] || (!IsSpace(s[0]) && !IsSpace(s[|s| - 1]))
    ensures Strip(p + s + q) == s
  {
    assert p + s + q == p + (s + q);
    if s == [] {
      assert AllSpace(p + q);
      LStripSpacePrefix(p + q, []);
      assert p + q + [] == p + q;
    } else {
      LStripSpacePrefix(p, s + q);
      RStripSpaceSuffix(s, q);
    }
  }

  /** A string that neither starts nor ends with whitespace is its own
      `strip`. */
  lemma StripTrimmed(s: string)
    requires s == [] || (!IsSpace(s[0]) && !IsSpace(s[|s| - 1]))
    ensures Strip(s) == s
  {
    StripSurrounded([], s, []);
    assert [] + s + [] == s;
  }

  /** `lower` never turns whitespace into a letter or back. */
  lemma LowerCharKeepsSpace(c: char)
    ensures IsSpace(LowerChar(c)) <==> IsSpace(c)
  {
  }

  /** `lower` works character by character, so piecewise. */
  lemma LowerAppend(a: string, b: string)
    ensures Lower(a + b) == Lower(a) + Lower(b)
  {
    assert forall k | 0 <= k < |a + b| :: Lower(a + b)[k] == (Lower(a) + Lower(b))[k];
  }

  lemma LowerKeepsAllSpace(p: string)
    requires AllSpace(p)
    ensures AllSpace(Lower(p))
  {
    forall k | 0 <= k < |p| ensures IsSpace(Lower(p)[k]) {
      LowerCharKeepsSpace(p[k]);
    }
  }

  /** `lower` and `strip` may be applied in either order: lower-casing
      moves no character into or out of the surrounding whitespace. */
  lemma LowerStripCommute(t: string)
    ensures Strip(Lower(t)) == Lower(Strip(t))
  {
    StripSplits(t);
    var i := SpaceRun(t);
    LowerSurrounded(t[..i], Strip(t), t[i + |Strip(t)|..]);
  }

  /** A text is its leading whitespace, its `strip` and its trailing
      whitespace. */
  lemma StripSplits(t: string)
    ensures var i := SpaceRun(t);
            var s := Strip(t);
            && AllSpace(t[..i]) && AllSpace(t[i + |s|..])
            && t == t[..i] + s + t[i + |s|..]
  {
    var i := SpaceRun(t);
    var s := Strip(t);
    assert t == t[..i] + t[i..i + |s|] + t[i + |s|..];
  }

  /** Lower-casing whitespace around a trimmed text leaves whitespace
      around the lower-cased text. */
  lemma LowerSurrounded(p: string, s: string, q: string)
    requires AllSpace(p) && AllSpace(q)
    requires s == [] || (!IsSpace(s[0]) && !IsSpace(s[|s| - 1]))
    ensures Strip(Lower(p + s + q)) == Lower(s)
  {
    LowerAppend(p, s);
    LowerAppend(p + s, q);
    LowerKeepsAllSpace(p);
    LowerKeepsAllSpace(q);
    if s != [] {
      LowerCharKeepsSpace(s[0]);
      LowerCharKeepsSpace(s[|s| - 1]);
    }
    StripSurrounded(Lower(p), Lower(s), Lower(q));
  }

  lemma StripIdempotent(s: string)
    ensures Strip(Strip(s)) == Strip(s)
  {
    StripTrimmed(Strip(s));
  }

  /** The length of the leading run of non-whitespace characters. */
  function WordLength(s: string): (n: nat)
    ensures n <= |s|
    ensures NoSpace(s[..n])
    ensures n == |s| || IsSpace(s[n])
  {
    if s == [] || IsSpace(s[0]) then 0
    else
      var n := 1 + WordLength(s[1..]);
      assert s[..n] == [s[0]] + s[1..][..n - 1];
      n
  }

  /** `s.split()` with no separator: the maximal runs of non-whitespace
      characters, left to right. Every word is non-empty and holds no
      whitespace. */
  function Split(s: string): (words: seq<string>)
    ensures forall k :: 0 <= k < |words| ==> words[k] != [] && NoSpace(words[k])
    decreases |s|
  {
    var t := LStrip(s);
    if t == [] then []
    else
      var n := WordLength(t);
      assert n >= 1 by { assert !IsSpace(t[0]); }
      var rest := Split(t[n..]);
      [t[..n]] + rest
  }

  /** An independent count of words: a left-to-right scan that counts a
      word each time a non-whitespace character follows whitespace or the
      start of the text. `inWord` says whether the previous character was
      part of a word. */
  function Runs(s: string, inWord: bool): nat {
    if s == [] then 0
    else if IsSpace(s[0]) then Runs(s[1..], false)
    else (if inWord then 0 else 1) + Runs(s[1..], true)
  }

  /** The number of maximal non-whitespace runs in `s`. */
  function RunCount(s: string): nat {
    Runs(s, false)
  }

  lemma {:induction false} RunsSkipSpace(s: string)
    ensures Runs(s, false) == Runs(LStrip(s), false)
    decreases |s|
  {
    if s != [] && IsSpace(s[0]) {
      RunsSkipSpace(s[1..]);
    }
  }

  /** Inside a word, the scan counts nothing until the word ends. */
  lemma {:induction false} RunsInsideWord(s: string, k: nat)
    requires k <= WordLength(s)
    ensures Runs(s[k..], true) == Runs(s[WordLength(s)..], true)
    decreases WordLength(s) - k
  {
    var n := WordLength(s);
    if k < n {
      assert !IsSpace(s[k..][0]) by { assert s[k..][0] == s[..n][k]; }
      assert s[k..][1..] == s[k + 1..];
      RunsInsideWord(s, k + 1);
    }
  }

  lemma RunsAfterWord(s: string)
    requires s == [] || IsSpace(s[0])
    ensures Runs(s, true) == Runs(s, false)
  {
  }

  /** `len(s.split())` is the number of maximal non-whitespace runs. */
  lemma {:induction false} SplitCountsRuns(s: string)
    ensures |Split(s)| == RunCount(s)
    decreases |s|
  {
    RunsSkipSpace(s);
    var t := LStrip(s);
    if t != [] {
      var n := WordLength(t);
      RunsInsideWord(t, 1);
      RunsAfterWord(t[n..]);
      SplitCountsRuns(t[n..]);
    }
  }

  // ---------------------------------------------------------------------
  // Decimal digits

  function DigitChar(d: nat): char
    requires d < 10
  {
    ('0' as int + d) as char
  }

  predicate IsDigitChar(c: char) {
    '0' <= c <= '9'
  }

  /** `s.isdigit()` for ASCII text: non-empty and all digits. */
  predicate IsDigits(s: string) {
    |s| > 0 && forall i :: 0 <= i < |s| ==> IsDigitChar(s[i])
  }

  /** `str(n)` for a natural number. */
  function Decimal(n: nat): (r: string)
    ensures IsDigits(r)
  {
    if n < 10 then [DigitChar(n)]
    else Decimal(n / 10) + [DigitChar(n % 10)]
  }

  /** The value of a string of decimal digits (leading zeros allowed). */
  function DigitsValue(s: string): nat
    requires forall i :: 0 <= i < |s| ==> IsDigitChar(s[i])
  {
    if s == [] then 0
    else
      assert IsDigitChar(s[|s| - 1]);
      DigitsValue(s[..|s| - 1]) * 10 + (s[|s| - 1] as int - '0' as int)
  }

  /** Reading back a rendered number gives the number. */
  lemma {:induction false} DigitsValueOfDecimal(n: nat)
    ensures DigitsValue(Decimal(n)) == n
  {
    if n >= 10 {
      var p := Decimal(n / 10);
      assert (p + [DigitChar(n % 10)])[..|p|] == p;
      DigitsValueOfDecimal(n / 10);
    }
  }

  lemma DecimalInjective(m: nat, n: nat)
    requires Decimal(m) == Decimal(n)
    ensures m == n
  {
    DigitsValueOfDecimal(m);
    DigitsValueOfDecimal(n);
  }

  /** `int(s)`: an optional sign followed by decimal digits; anything else
      raises ValueError (None here). */
  function ParseInt(s: string): (r: Option<int>)
    ensures r.Some? ==> |s| > 0
    ensures IsDigits(s) ==> r == Some(DigitsValue(s))
    ensures r.Some? && r.value < 0 ==> s[0] == '-'
    ensures r.Some? ==> IsDigits(s) || (s[0] in "+-" && IsDigits(s[1..]))
    ensures |s| > 1 && s[0] == '+' && IsDigits(s[1..]) ==> r == Some(DigitsValue(s[1..]))
    ensures |s| > 1 && s[0] == '-' && IsDigits(s[1..]) ==> r == Some(0 - DigitsValue(s[1..]))
  {
    if IsDigits(s) then Some(DigitsValue(s))
    else if |s| > 1 && s[0] == '+' && IsDigits(s[1..]) then Some(DigitsValue(s[1..]))
    else if |s| > 1 && s[0] == '-' && IsDigits(s[1..]) then Some(0 - DigitsValue(s[1..]) as int)
    else None
  }

  /** `int(str(n)) == n` */
  lemma ParseIntOfDecimal(n: nat)
    ensures ParseInt(Decimal(n)) == Some(n)
  {
    DigitsValueOfDecimal(n);
  }

  /** `str(n)` for any integer: a minus sign before the digits of a
      negative number. */
  function IntText(n: int): (r: string)
    ensures r != []
  {
    if n < 0 then "-" + Decimal(-n) else Decimal(n)
  }

  /** `int(str(n)) == n` for every integer. */
  lemma ParseIntOfIntText(n: int)
    ensures ParseInt(IntText(n)) == Some(n)
  {
    if n < 0 {
      var d := Decimal(-n);
      assert ("-" + d)[1..] == d;
      DigitsValueOfDecimal(-n);
    } else {
      ParseIntOfDecimal(n);
    }
  }

  lemma ParseIntOfEveryDecimal()
    ensures forall n: nat :: ParseInt(Decimal(n)) == Some(n)
  {
    forall n: nat ensures ParseInt(Decimal(n)) == Some(n) {
      ParseIntOfDecimal(n);
    }
  }
}

=== FILE: values.dfy ===
/** The dynamically typed values the routes handle: an optional value (a
    missing dictionary key or Python's None), and the JSON values that a
    request body, a stored content-block list or a single block can hold. */
module Values {

  datatype Option<+T> = None | Some(value: T) {

    /** The held value, or `default` when there is none. */
    function GetOr(default: T): T {
      match this
      case Some(v) => v
      case None => default
    }
  }

  /** A JSON value as Python's json module yields it. Numbers are integers.
      An object is its members in document order; a parsed object has
      distinct keys. */
  datatype Json =
    | JNull
    | JBool(b: bool)
    | JNum(n: int)
    | JStr(s: string)
    | JList(items: seq<Json>)
    | JObj(members: seq<Member>)

  datatype Member = Member(key: string, value: Json)

  /** Python truthiness, `bool(v)`: null, false, zero and empty
      containers are falsy. */
  predicate Truthy(v: Json) {
    match v
    case JNull => false
    case JBool(b) => b
    case JNum(n) => n != 0
    case JStr(s) => s != ""
    case JList(xs) => xs != []
    case JObj(ms) => ms != []
  }

  /** `k in d` */
  predicate HasKey(ms: seq<Member>, k: string) {
    exists i :: 0 <= i < |ms| && ms[i].key == k
  }

  /** The value stored under `k`, if the key is present. */
  function Lookup(ms: seq<Member>, k: string): (r: Option<Json>)
    ensures r.None? <==> !HasKey(ms, k)
    ensures r.Some? ==> exists i :: 0 <= i < |ms| && ms[i] == Member(k, r.value)
  {
    if ms == [] then None
    else if ms[0].key == k then Some(ms[0].value)
    else
      var r := Lookup(ms[1..], k);
      assert HasKey(ms, k) <==> HasKey(ms[1..], k) by {
        if HasKey(ms, k) {
          var i :| 0 <= i < |ms| && ms[i].key == k;
          assert ms[1..][i - 1].key == k;
        }
        if HasKey(ms[1..], k) {
          var i :| 0 <= i < |ms[1..]| && ms[1..][i].key == k;
          assert ms[i + 1].key == k;
        }
      }
      if r.Some? then
        var i :| 0 <= i < |ms[1..]| && ms[1..][i] == Member(k, r.value);
        assert ms[i + 1] == Member(k, r.value);
        r
      else r
  }

  /** `d.get(k, default)` */
  function GetOrDefault(ms: seq<Member>, k: string, default: Json): Json {
    Lookup(ms, k).GetOr(default)
  }

  /** `d.get(k)`, where a missing key reads as None */
  function Get(ms: seq<Member>, k: string): Json {
    GetOrDefault(ms, k, JNull)
  }

  /** What `for x in v` walks over: the items of a list, the one-character
      strings of a string, the keys of an object. Any other value is not
      iterable, and Python raises TypeError (None here). */
  function Iterate(v: Json): (r: Option<seq<Json>>)
    ensures v.JList? ==> r == Some(v.items)
    ensures v.JStr? ==> r.Some? && |r.value| == |v.s|
                        && forall i :: 0 <= i < |v.s| ==> r.value[i] == JStr([v.s[i]])
    ensures v.JObj? ==> r.Some? && |r.value| == |v.members|
                        && forall i :: 0 <= i < |v.members| ==> r.value[i] == JStr(v.members[i].key)
    ensures r.None? <==> (v.JNull? || v.JBool? || v.JNum?)
  {
    match v
    case JList(xs) => Some(xs)
    case JStr(s) => Some(seq(|s|, i requires 0 <= i < |s| => JStr([s[i]])))
    case JObj(ms) => Some(seq(|ms|, i requires 0 <= i < |ms| => JStr(ms[i].key)))
    case _ => None
  }
}
